=== FILE: README.md ===
# File Manager core in Dafny

This project models the core of a small Node.js command-line file manager.
The program reads one line at a time and keeps a session directory. It runs
commands such as `cd`, `up`, `ls`, `compress` and `decompress` against that
directory.

The model covers:

- **The line handler of `index.js`.** The line is trimmed and `.exit` is
  recognised. The command word is split off, dispatched over the fixed table
  of commands, and the `os` flags are matched.
- **The `--username=` start-up argument.**
- **Directory navigation (`navDirectory`, `goUp`).** This is modelled on
  Node's POSIX `path.resolve` and `path.dirname`, over a normalised path
  representation.
- **Preparation in `compressFile.js` and `decompressFile.js`.** This is the
  path that is read, the path that is written, and the "only files" guard.
- **`showTable.js`.** Each name is classified as a directory or a file, names
  whose lookup fails are skipped, and the entries are sorted directories first
  and then by name.

Everything outside the program is a parameter:

- The file system is three functions: the answer of `fs.promises.access` (`accessible: Path -> bool`), of `fs.promises.stat` (`stat: Path -> Stat`), and whether `fs.promises.readdir` succeeds (`listable: Path -> bool`). The names `readdir` returns are a parameter of the listing.
- The `localeCompare` collation is an arbitrary total preorder `le` on strings.

The modules follow the program's structure:

- `Text` holds the JavaScript string primitives: `trim`, `split`, `join` and `indexOf`.
- `Paths` holds Node's `path` functions.
- `Navigation` covers `navDirectory` and `goUp`.
- `Commands` covers the line parser and the dispatch switch.
- `Dispatcher` covers the session and the read-eval loop.
- `Archive` covers compress and decompress.
- `Listing` covers `showTable`.
- `FileStat` and `Wrappers` hold shared data types.

Three behaviours of the code are easy to miss:

- **Splitting the line.** The line is split on single spaces (`index.js:171`).
  So `cd  foo` passes ` foo` to `cd`, and `os  --EOL` is an unknown flag.
- **The compress and decompress destination.** Compression and decompression do
  not resolve the destination directory against the session directory
  (`compressFile.js:14-17`, `decompressFile.js:14-17`). See Findings.
- **`ls` in a directory that cannot be read.** `ls` calls `showTable` without
  `await` or `.catch` (`index.js:184`), and `showTable` calls `readdir` outside
  its `try` (`showTable.js:5`). A rejected `readdir` is therefore an unhandled
  rejection, which ends a Node.js process (the default since Node.js 15; the
  `node:stream/promises` import needs 15 or later). The model ends the session
  there. See Findings.

## Model

| member | source | states |
|---|---|---|
| Text.IndexOf | index.js:171 | the search `split` performs: absent exactly when the character does not occur; otherwise the position of its first occurrence |
| Text.Trim | index.js:168 | `trim` removes only ECMAScript white space, and only at both ends: the result is a slice of the input with white space before and after it, and it neither starts nor ends with white space |
| Text.TrimIdempotent | index.js:168 | trimming text that is already trimmed changes nothing |
| Text.TrimPadded | index.js:168 | a word surrounded by any white space trims to exactly that word |
| Text.Split | index.js:171 | `split` yields at least one piece, and no piece contains the separator |
| Text.FirstField | index.js:171 | the text before the first separator is a prefix without the separator, followed in the input by the separator when it is shorter |
| Text.SplitFirst | index.js:171 | the first piece of `split` is the text before the first separator |
| Text.Join | index.js:172 | `join` starts with the first piece, and with several pieces the separator follows it; JoinSplit and SplitJoin relate it to `split` |
| Text.JoinSplit | index.js:171-172 | joining the pieces of a split with the same separator restores the text |
| Text.SplitJoin | index.js:171-172 | splitting a join of separator-free pieces gives back the pieces |
| Text.SplitAround | index.js:171 | splitting `a + sep + b` is splitting `a`, then `b` |
| Paths.Walk | index.js:43 | normalisation yields a well-formed path of the same kind, and a relative path never loses leading `..` steps |
| Paths.WalkConcat | index.js:43 | normalising a concatenation of segment lists normalises one list after the other |
| Paths.Resolve | index.js:43 | `path.resolve` against an absolute base always yields an absolute, normalised path |
| Paths.ResolveEmpty | index.js:43 | resolving the empty string stays at the base |
| Paths.ResolveName | index.js:43 | resolving a plain name steps into it |
| Paths.ResolveParent | index.js:55 | resolving `..` is `path.dirname`, so `cd ..` and `up` target the same directory |
| Paths.ResolveAbsolute | index.js:43 | an absolute argument does not depend on the session directory |
| Paths.ResolveThen | index.js:43 | `cd x` followed by `cd y` (with `y` relative) targets the same path as `cd x/y` |
| Paths.Render | index.js:39 | the printed directory of an absolute path starts with `/`, and the empty relative path prints as `.`; ResolveRender and RenderInjective relate printing to resolving |
| Paths.ResolveRender | index.js:43 | resolving the printed form of an absolute path gives that path back, from any base |
| Paths.RenderInjective | index.js:56 | two absolute paths with the same text are the same path, so `goUp`'s string comparison is a path comparison |
| Paths.Dirname | index.js:55 | `path.dirname` of the root is the root; of any other path, the directory whose child is that path |
| Paths.BaseName | compressFile.js:13 | `path.basename` is empty only for the root; otherwise a plain name, and the path is that name below its directory |
| Paths.BaseNameWithout | decompressFile.js:16 | `path.basename(p, ".br")` drops the suffix exactly when the base name ends with it and is longer than it, and otherwise keeps the base name |
| Paths.JoinPath | compressFile.js:14-17 | `path.join` gives an absolute path exactly when the directory text starts with `/` |
| Paths.JoinPathName | compressFile.js:14-17 | joining a plain name puts it one level below the normalised directory |
| Paths.JoinPathNames | compressFile.js:14-17 | a plain directory name joined with a plain file name is a two-name relative path |
| Paths.JoinAbsolute | decompressFile.js:14-17 | `path.join` onto an absolute directory text is resolving the name from that directory, wherever the resolution starts |
| Paths.JoinRendered | showTable.js:8 | joining a plain name onto an absolute directory's text is that directory's child |
| Navigation.NavDirectory | index.js:42-52 | `cd`: the target is the resolved argument; if the access check accepts it, it becomes the directory and is shown; otherwise the directory is unchanged and the failure is reported; the result is always absolute |
| Navigation.GoUp | index.js:54-63 | `up`: reports "cannot go higher" exactly at the root and stays there; elsewhere it moves to `..`, one level shorter |
| Navigation.GoUpAtRootIdempotent | index.js:56-60 | when the parent's text equals the directory's text, `up` keeps the directory, and a second `up` produces the same result |
| Commands.ParseOsFlag | index.js:224-243 | exactly the five flag texts are recognised, each as its own flag |
| Commands.OsCommand | index.js:223-244 | `os` gives system information exactly for a known flag and otherwise reports the untrimmed rest as an unknown flag |
| Commands.SplitCommand | index.js:171-172 | the command is the text before the first space; the argument is exactly the text after it (split then re-joined); with no space the argument is empty |
| Commands.SplitOperands | index.js:193 | the two operands are the first two space-separated tokens of the trimmed argument; the second is missing exactly when it holds no space |
| Commands.Dispatch | index.js:173-249 | the command carries its typed word; it is unknown exactly when the word is not one of the fourteen; path commands get the whole argument, two-operand commands its first two tokens; `os` gives system information exactly for one of the five flags and otherwise reports the untrimmed argument as an unknown flag |
| Commands.ParseLine | index.js:167-249 | `.exit` exactly when the trimmed line is `.exit`; otherwise the first word of the trimmed line picks the command, the text after its first space is the argument, and an `os` line is read as `os` reads that argument |
| Commands.ParseSingleWord | index.js:168-172 | a line holding one word surrounded by white space dispatches that word with an empty argument |
| Commands.SplitValue | index.js:18 | `arg.split("=")[1]` of a `--username=` argument is the text between the first and the second `=` |
| Commands.ScanUsername | index.js:17-19 | each `--username=` argument overwrites the name, so the last one wins; with none the name is unchanged |
| Commands.Username | index.js:16-19 | the user name is the value of the last `--username=` argument, or empty without one |
| Dispatcher.Start | index.js:16-36 | the session starts in the process directory, named by the last `--username=` argument, and with an empty name when none is given |
| Dispatcher.Handle | index.js:167-251 | one parsed command: the session closes exactly on `.exit`, and on `ls` when `readdir` of the directory fails; only `cd` and `up` move the directory, which stays absolute; `cd` moves only to an accepted path and `up` moves to `..`; the name is kept |
| Dispatcher.HandleNotices | index.js:173-249 | `.exit` says goodbye, `nwd` shows the directory, `ls` hands over to `showTable` or ends the process, file-system and `os` commands are handed over as parsed, unknown words and flags are reported and change nothing |
| Dispatcher.HandleUp | index.js:177-179 | `up` moves where `goUp` moves and reports what it reports; at the root it reports that it cannot go higher |
| Dispatcher.HandleChangeDirectory | index.js:180-182 | `cd` moves where `navDirectory` moves and reports what it reports |
| Dispatcher.Step | index.js:167-251 | one line: the session closes exactly on `.exit` or on `ls` in a directory `readdir` rejects; unknown words are reported; handed-over commands are passed on as parsed; `cd` moves where `navDirectory` moves; the directory stays absolute and the name is kept |
| Dispatcher.Run | index.js:166-251 | lines are handled in order; a closed session ignores all later lines; without an `.exit` line and without an `ls` line the session stays open |
| Dispatcher.RunAppend | index.js:166-251 | handling two blocks of lines is handling the first, then the second from the state it left |
| Dispatcher.RunKeepsAccessible | index.js:42-63 | if the start directory passes the access check, and the check accepts the parent of every path it accepts, the directory passes it after any sequence of lines |
| Dispatcher.ParseUp | index.js:177-179 | the line `up` is the `up` command |
| Dispatcher.StepUp | index.js:177-179 | one `up` line moves the session where `goUp` goes and keeps it open |
| Dispatcher.UpsReachRoot | index.js:54-63 | as many `up` lines as the directory has levels, or more, reach the root |
| Dispatcher.UpsAtRoot | index.js:56-59 | at the root, any number of `up` lines leaves the session as it is |
| Dispatcher.RunExitLine | index.js:168-170 | the line `.exit` closes the session from any state |
| Dispatcher.ExitEndsRun | index.js:168-170 | lines after `.exit` are never handled, and the session is closed after it |
| Dispatcher.ParseList | index.js:183-185 | the line `ls` is the `ls` command |
| Dispatcher.ListCrashes | index.js:183-185 | `ls` in a directory whose `readdir` fails ends the process, and no later line is handled |
| Dispatcher.StepMoves | index.js:42-52 | a `cd` line whose resolved target passes the access check moves the session there |
| Dispatcher.CdThenListCrashes | index.js:180-185 | a `cd` onto a path the access check accepts but `readdir` rejects (a regular file), followed by `ls`, ends the session in that path |
| Dispatcher.StepReported | showTable.js:4-20 | corrected `ls`: a failed `readdir` is reported and the session goes on; the session then closes exactly on `.exit`, and every other line is handled as before |
| Dispatcher.Printed | index.js:183-185 | a handed-over `ls` prints `showTable` of the session directory: exactly the rows of the names whose lookup succeeds, as often as the names occur, directories before files |
| Dispatcher.Prepared | index.js:210-222 | `compress` and `decompress` call their handler with the line's first operand as the source, its second as the destination, and the session directory third: the source is resolved against the session directory, and a transfer is prepared exactly when both operands are given and the source is a regular file; the output goes, as written, to `path.join` of the unresolved second operand with the compressed or decompressed name |
| Dispatcher.ArchiveLine | index.js:210-222 | a `compress` or `decompress` line leaves the session unchanged and prepares a transfer exactly when its trimmed argument holds a space and its first token resolves to a regular file, which is then the file read |
| Archive.CompressedName | compressFile.js:13-16 | the archive name is a plain name ending in `.br`, and dropping the suffix gives back the source's base name |
| Archive.DecompressedName | decompressFile.js:16 | the output name drops a trailing `.br` exactly when the base name is longer than the suffix; it never holds `/` |
| Archive.Guard | compressFile.js:19-23 | the streams are opened exactly when the source is a regular file; a failed lookup and a non-file are reported apart |
| Archive.CompressFile | compressFile.js:11-23 | a missing destination is an error; the source is resolved against the session directory; the output is `<base>.br` below the destination directory text as typed, absolute exactly when that text starts with `/`; only regular files are compressed |
| Archive.DecompressFile | decompressFile.js:11-23 | as compression, with the output named by the base name without `.br` when it ends in it (and is longer), else by the base name itself |
| Archive.NameRoundTrip | decompressFile.js:16 | decompressing an archive named by compression restores the source's base name, for every source except the root |
| Archive.Opened | compressFile.js:26 | the operating system opens an absolute path as is and a relative one from the process's start directory |
| Archive.CompressRelativeDestination | compressFile.js:14-17 | with a plain-name destination directory (such as `out`), the archive is written below the process's start directory, which differs from the session directory's subdirectory whenever the two directories differ |
| Archive.DecompressRelativeDestination | decompressFile.js:14-17 | with a plain-name destination directory (such as `out`) and a plain output name, the decompressed file is written below the process's start directory, not below the session directory |
| Archive.CompressFileResolved | compressFile.js:11-23 | corrected compression: the output lies directly in the destination directory resolved against the session directory, and is named `<base>.br`, wherever the process started |
| Archive.DecompressFileResolved | decompressFile.js:11-23 | corrected decompression: for a plain output name (one with no `/` and not `.` or `..`), the output lies in the resolved destination directory under the decompressed name; for any output name it is that name resolved against the resolved directory |
| Archive.CompressAgreesOnAbsoluteDirectory | compressFile.js:14-17 | with an absolute destination directory, the written and the corrected compression agree |
| Archive.DecompressAgreesOnAbsoluteDirectory | decompressFile.js:14-17 | with an absolute destination directory, the written and the corrected decompression agree |
| Archive.CompressThenDecompressAbsolute | decompressFile.js:12-17 | as written, with absolute destination directories: compressing a file, then decompressing the archive by its printed path, writes a file with the original base name directly in the second directory |
| Archive.CompressThenDecompress | decompressFile.js:12-17 | for the corrected pair, with any destination directories: compressing a file, then decompressing the archive by its printed path into any directory, writes a file with the original base name there |
| Listing.TypeOf | showTable.js:11 | an entry is a directory exactly when its lookup says directory; every other kind is a file |
| Listing.Classify | showTable.js:7-20 | every listed row belongs to a name whose lookup succeeded, with the type that lookup gives |
| Listing.ClassifyCounts | showTable.js:7-20 | each possible row occurs as often as its name among the directory's names if its lookup gives that row, and never otherwise: failed lookups are dropped, nothing is invented |
| Listing.ClassifyAppend | showTable.js:9-19 | a failing lookup affects only its own name: the rows of the names before and after it are as if listed alone |
| Listing.EntryTotal | showTable.js:22-30 | under a total name order any two rows compare one way or the other |
| Listing.EntryTransitive | showTable.js:22-30 | the comparator's order chains |
| Listing.EntryLe | showTable.js:22-30 | a directory goes before a file and never after it; within one type the name order decides |
| Listing.Compare | showTable.js:22-30 | the comparator: -1 for a directory before a file, 1 for a file before a directory, otherwise the sign of `localeCompare`; it is not positive exactly when EntryLe holds, and zero exactly when EntryLe holds both ways |
| Listing.Row | showTable.js:9-19 | a name gives at most one row: exactly one when `stat` of the name in the directory succeeds, carrying the name and the type `stat` reported, and none when it fails |
| Listing.Insert | showTable.js:22-30 | inserting one row adds exactly that row: the result is the input with one more copy of it |
| Listing.InsertSorted | showTable.js:22-30 | inserting into a sorted table keeps it sorted |
| Listing.SortEntries | showTable.js:22-30 | the sorted rows are in comparator order and are a permutation of the input |
| Listing.InsertStable | showTable.js:22-30 | an inserted row follows the rows the comparator ranks equal to it |
| Listing.SortStable | showTable.js:22-30 | sorting keeps the relative order of rows the comparator ranks equal |
| Listing.SortedLayout | showTable.js:22-28 | in comparator order no file precedes a directory, and rows of one type are in name order |
| Listing.ShowTable | showTable.js:4-30 | the table lists exactly the rows of the names whose lookup succeeded, as often as the names occur, directories before files, each type in name order |
| Listing.ShowTableStable | showTable.js:22-30 | rows that compare equal keep the order the directory listing gave them |

## Left out

- **The file transfers.** The Brotli compression and decompression streams, the byte copying of `cp` and `mv`, and the unlinks of `mv` and `rm` are left out. A successful compress or decompress is the pair of paths the streams would be opened on. Stream errors (`compressFile.js:25-35`) are not modelled.
- **`hash`.** The SHA-256 computation (`index.js:140-162`) is left out: the model stops at the `Hash` command.
- **`cat`, `add` and `rn`.** `readFile.js`, `createFile.js` and `renameFile.js` are not part of this model: the dispatcher produces the command and its argument.
- **The `./rename.js` import.** `index.js:11` imports `./rename.js`, while the module is `renameFile.js`. Module loading is not modelled; the model assumes the import resolves.
- **The `os` reporters and their console output.** The reporters (`index.js:110-138`) and all console output are left out. The model returns what would be reported (`Report`, `Notice`) in place of text.
- **Output formatting.** `console.table` formatting and the exact `localeCompare` collation are left out. The collation is a parameter, required only to be a total preorder. The sort is modelled by a stable insertion sort. Because a stable sort under a total preorder has a single possible result, the model's order is the one `Array.prototype.sort` produces.
- **Concurrency.** The readline lifecycle (the prompt, the `close` event, the farewell text) is left out, and so is concurrency. `rl.on("line", async …)` does not wait for one handler before starting the next. A line typed while `cd` awaits its access check could therefore run against the old directory. The model handles lines strictly one after another. `ls`, `cat`, `add` and `hash` are not awaited either; in particular the process ends when the rejected `readdir` of `ls` settles, which may be after later lines were read, while the model ends it at the `ls` line.
- **The file system.** The file system is three functions (`accessible`, `stat` and `listable`), plus the names `readdir` returns. An answer that changes between calls, or a `readdir` result that disagrees with `listable`, is not modelled.
- Dispatcher.RunKeepsAccessible: assumes the access check accepts the parent of every path it accepts. `up` consults no check, so without this assumption the property does not hold.
- **Strings.** Strings are sequences of Unicode scalar values; JavaScript uses UTF-16 code units. All separators and white space characters involved are single code units, so no operation here tells the two apart.
- **The trailing separator of `path.join`.** `path.join` keeps a trailing separator, which is only reachable here when the source is the root (empty base name). The normalised path representation drops it.
- **Windows paths.** Drive letters and back-slashes are not modelled; paths are POSIX.

## Findings

| source | as written | input that shows it | evidently intended | confidence | as-written member | corrected member |
|---|---|---|---|---|---|---|
| compressFile.js:14-17 | the output path is `path.join(destinationDirectory, name)`; a relative destination directory is left relative, so the operating system opens it from the process's start directory | start in `/home`, type `cd /work`, then `compress note.txt out`: the archive goes to `/home/out/note.txt.br` | the destination directory is resolved against the session directory, as `cp` and `mv` do (`index.js:68-69`): `/work/out/note.txt.br` | medium, not executed | Archive.CompressRelativeDestination | Archive.CompressFileResolved |
| decompressFile.js:14-17 | the same `path.join` of the unresolved destination directory | start in `/home`, type `cd /work`, then `decompress note.txt.br out`: the file goes to `/home/out/note.txt` | the destination directory is resolved against the session directory | medium, not executed | Archive.DecompressRelativeDestination | Archive.DecompressFileResolved |
| index.js:184 | `showTable(currentDirectory)` is neither awaited nor given a `.catch`, and `showTable.js:5` calls `readdir` outside its `try`; a rejected `readdir` is an unhandled rejection, which ends the process | type `cd /etc/passwd` (the access check accepts a file), then `ls`: `readdir` fails with ENOTDIR and the process exits instead of printing "Operation failed" | the failure is reported like every other handler's and the session goes on | medium, not executed; assumes the default unhandled-rejection mode of Node.js 15 and later | Dispatcher.CdThenListCrashes | Dispatcher.StepReported |

=== FILE: archive.dfy ===
/** The preparation half of `compressFile` and `decompressFile`: which file is
    read, which file is written, and the checks made before any stream is
    opened. The Brotli streams themselves are not modelled; a successful
    result is the pair of paths the two streams would be opened on. */
module Archive {
  import opened Wrappers
  import opened Text
  import opened Paths
  import opened FileStat

  /** The archive suffix. */
  const Suffix := ".br"

  /** Why no stream was opened; each is reported on the console and the
      function returns normally. */
  datatype Failure =
    | InvalidArgument  // no destination operand: `path.join` throws on `undefined`
    | StatError        // `fs.promises.stat` rejected (missing source, no permission)
    | NotAFile         // the source exists but is not a regular file

  /** The file a read stream is opened on and the file a write stream is
      opened on. */
  datatype Transfer = Transfer(source: Path, destination: Path)

  /** The name compression gives its output: the source's base name followed
      by the suffix. It is always a plain name. */
  function CompressedName(source: Path): (n: string)
    requires IsAbsolutePath(source)
    ensures IsName(n) && EndsWith(n, Suffix) && n[..|n| - |Suffix|] == BaseName(source)
  {
    BaseName(source) + Suffix
  }

  /** The name decompression gives its output: `path.basename(source, ".br")`. */
  function DecompressedName(source: Path): (n: string)
    requires IsAbsolutePath(source)
    ensures '/' !in n
    ensures var b := BaseName(source);
            if EndsWith(b, Suffix) && |b| > |Suffix| then n + Suffix == b else n == b
  {
    BaseNameWithout(source, Suffix)
  }

  /** The checks shared by both operations once the output path is known:
      the source must be a regular file before anything is opened. */
  function Guard(source: Path, destination: Path, stat: Path -> Stat): (r: Result<Transfer, Failure>)
    ensures r.Ok? <==> stat(source) == Found(RegularFile)
    ensures r.Ok? ==> r.value == Transfer(source, destination)
    ensures stat(source).StatFailed? ==> r == Err(StatError)
    ensures stat(source).Found? && stat(source).kind != RegularFile ==> r == Err(NotAFile)
  {
    match stat(source)
    case StatFailed => Err(StatError)
    case Found(kind) => if kind == RegularFile then Ok(Transfer(source, destination)) else Err(NotAFile)
  }

  /** `compressFile(sourcePath, destinationDirectory, currentDirectory)`: the
      source is resolved against the session directory, but the destination
      directory is glued onto the output name as typed, so a relative one
      stays relative. */
  function CompressFile(sourcePath: string, destinationDirectory: Option<string>,
                        cwd: Path, stat: Path -> Stat): (r: Result<Transfer, Failure>)
    requires IsAbsolutePath(cwd)
    ensures destinationDirectory.None? ==> r == Err(InvalidArgument)
    ensures r.Ok? <==> destinationDirectory.Some? && stat(Resolve(cwd, sourcePath)) == Found(RegularFile)
    ensures destinationDirectory.Some? && stat(Resolve(cwd, sourcePath)).StatFailed? ==> r == Err(StatError)
    ensures (destinationDirectory.Some? && stat(Resolve(cwd, sourcePath)).Found?
             && stat(Resolve(cwd, sourcePath)).kind != RegularFile) ==> r == Err(NotAFile)
    ensures r.Ok? ==> && r.value.source == Resolve(cwd, sourcePath)
                      && r.value.destination
                           == Child(JoinPath(destinationDirectory.value, ""), BaseName(r.value.source) + Suffix)
                      && (r.value.destination.absolute <==> StartsWith(destinationDirectory.value, "/"))
  {
    var source := Resolve(cwd, sourcePath);
    match destinationDirectory
    case None => Err(InvalidArgument)
    case Some(dir) =>
      var name := CompressedName(source);
      JoinPathName(dir, name);
      Guard(source, JoinPath(dir, name), stat)
  }

  /** `decompressFile(sourcePath, destinationDirectory, currentDirectory)`: as
      compression, with the suffix removed from the base name instead of added;
      a base name without the suffix (or equal to it) is kept as it is. */
  function DecompressFile(sourcePath: string, destinationDirectory: Option<string>,
                          cwd: Path, stat: Path -> Stat): (r: Result<Transfer, Failure>)
    requires IsAbsolutePath(cwd)
    ensures destinationDirectory.None? ==> r == Err(InvalidArgument)
    ensures r.Ok? <==> destinationDirectory.Some? && stat(Resolve(cwd, sourcePath)) == Found(RegularFile)
    ensures destinationDirectory.Some? && stat(Resolve(cwd, sourcePath)).StatFailed? ==> r == Err(StatError)
    ensures (destinationDirectory.Some? && stat(Resolve(cwd, sourcePath)).Found?
             && stat(Resolve(cwd, sourcePath)).kind != RegularFile) ==> r == Err(NotAFile)
    ensures r.Ok? ==> && r.value.source == Resolve(cwd, sourcePath)
                      && (r.value.destination.absolute <==> StartsWith(destinationDirectory.value, "/"))
    ensures r.Ok? ==> var b := BaseName(r.value.source);
                      var dir := destinationDirectory.value;
                      if EndsWith(b, Suffix) && |b| > |Suffix| then
                        r.value.destination == JoinPath(dir, b[..|b| - |Suffix|])
                      else r.value.destination == JoinPath(dir, b)
  {
    var source := Resolve(cwd, sourcePath);
    match destinationDirectory
    case None => Err(InvalidArgument)
    case Some(dir) =>
      var name := DecompressedName(source);
      Guard(source, JoinPath(dir, name), stat)
  }

  /** Removing the suffix undoes adding it, for every source other than the
      root (whose base name is empty, so that its archive is named just
      `.br`, which decompression leaves alone). */
  lemma NameRoundTrip(source: Path, archive: Path)
    requires IsAbsolutePath(source) && IsAbsolutePath(archive)
    requires source != Root
    requires BaseName(archive) == CompressedName(source)
    ensures DecompressedName(archive) == BaseName(source)
  {
    var b := BaseName(archive);
    assert EndsWith(b, Suffix) && |b| > |Suffix|;
  }

  /** Where the operating system opens a path the program hands it: a relative
      path is taken from the directory the process was started in, which
      index.js never changes (its session directory is a variable of its own). */
  function Opened(p: Path, start: Path): (r: Path)
    requires WellFormed(p) && IsAbsolutePath(start)
    ensures IsAbsolutePath(r)
    ensures p.absolute ==> r == p
  {
    if p.absolute then p
    else
      var parts := Ups(p.ups) + p.segments;
      assert NoSlash(parts) by {
        forall k | 0 <= k < |parts| ensures '/' !in parts[k] {
          if k >= p.ups {
            assert parts[k] == p.segments[k - p.ups];
          }
        }
      }
      Walk(start, parts)
  }

  /** The destination of `compress` with a relative directory: the archive is
      written below the directory the process started in, not below the
      session directory the source was resolved against. */
  lemma CompressRelativeDestination(sourcePath: string, dir: string, cwd: Path,
                                    stat: Path -> Stat, start: Path)
    requires IsAbsolutePath(cwd) && IsAbsolutePath(start)
    requires IsName(dir)
    requires CompressFile(sourcePath, Some(dir), cwd, stat).Ok?
    ensures var t := CompressFile(sourcePath, Some(dir), cwd, stat).value;
            var name := CompressedName(t.source);
            && Opened(t.destination, start) == Child(Child(start, dir), name)
            && (start != cwd ==> Opened(t.destination, start) != Child(Child(cwd, dir), name))
  {
    var t := CompressFile(sourcePath, Some(dir), cwd, stat).value;
    var name := CompressedName(t.source);
    JoinPathNames(dir, name);
    OpenedNames(start, dir, name);
    if start != cwd {
      ChildrenDiffer(start, cwd, dir, name);
    }
  }

  /** The destination of `decompress` with a relative directory lies, like
      that of `compress`, below the directory the process started in. */
  lemma DecompressRelativeDestination(sourcePath: string, dir: string, cwd: Path,
                                      stat: Path -> Stat, start: Path)
    requires IsAbsolutePath(cwd) && IsAbsolutePath(start)
    requires IsName(dir)
    requires DecompressFile(sourcePath, Some(dir), cwd, stat).Ok?
    requires IsName(DecompressedName(Resolve(cwd, sourcePath)))
    ensures var t := DecompressFile(sourcePath, Some(dir), cwd, stat).value;
            var name := DecompressedName(t.source);
            && Opened(t.destination, start) == Child(Child(start, dir), name)
            && (start != cwd ==> Opened(t.destination, start) != Child(Child(cwd, dir), name))
  {
    var t := DecompressFile(sourcePath, Some(dir), cwd, stat).value;
    var name := DecompressedName(t.source);
    JoinPathNames(dir, name);
    OpenedNames(start, dir, name);
    if start != cwd {
      ChildrenDiffer(start, cwd, dir, name);
    }
  }

  /** A relative path of two names is opened two levels below the start
      directory. */
  lemma OpenedNames(start: Path, dir: string, name: string)
    requires IsAbsolutePath(start) && IsName(dir) && IsName(name)
    ensures Opened(Path(false, 0, [dir, name]), start) == Child(Child(start, dir), name)
  {
    assert Ups(0) + [dir, name] == [dir, name];
    WalkNames(start, [dir, name]);
  }

  /** Compression as evidently intended: the destination directory is
      resolved against the session directory, as `cp` and `mv` do. */
  function CompressFileResolved(sourcePath: string, destinationDirectory: Option<string>,
                                cwd: Path, stat: Path -> Stat): (r: Result<Transfer, Failure>)
    requires IsAbsolutePath(cwd)
    ensures r.Ok? <==> destinationDirectory.Some? && stat(Resolve(cwd, sourcePath)) == Found(RegularFile)
    ensures destinationDirectory.None? ==> r == Err(InvalidArgument)
    ensures r.Ok? ==> && r.value.source == Resolve(cwd, sourcePath)
                      && IsAbsolutePath(r.value.destination)
                      && Dirname(r.value.destination) == Resolve(cwd, destinationDirectory.value)
                      && BaseName(r.value.destination) == BaseName(r.value.source) + Suffix
                      && forall start | IsAbsolutePath(start) ::
                           Opened(r.value.destination, start) == r.value.destination
  {
    var source := Resolve(cwd, sourcePath);
    match destinationDirectory
    case None => Err(InvalidArgument)
    case Some(dir) =>
      var name := CompressedName(source);
      ResolveName(Resolve(cwd, dir), name);
      Guard(source, Resolve(Resolve(cwd, dir), name), stat)
  }

  /** Decompression as evidently intended, resolving its destination
      directory against the session directory. */
  function DecompressFileResolved(sourcePath: string, destinationDirectory: Option<string>,
                                  cwd: Path, stat: Path -> Stat): (r: Result<Transfer, Failure>)
    requires IsAbsolutePath(cwd)
    ensures r.Ok? <==> destinationDirectory.Some? && stat(Resolve(cwd, sourcePath)) == Found(RegularFile)
    ensures destinationDirectory.None? ==> r == Err(InvalidArgument)
    ensures r.Ok? ==> && r.value.source == Resolve(cwd, sourcePath)
                      && IsAbsolutePath(r.value.destination)
                      && (IsName(DecompressedName(r.value.source)) ==>
                            && Dirname(r.value.destination) == Resolve(cwd, destinationDirectory.value)
                            && BaseName(r.value.destination) == DecompressedName(r.value.source))
  {
    var source := Resolve(cwd, sourcePath);
    match destinationDirectory
    case None => Err(InvalidArgument)
    case Some(dir) =>
      var name := DecompressedName(source);
      var destination := Resolve(Resolve(cwd, dir), name);
      assert IsName(name) ==> destination == Child(Resolve(cwd, dir), name) by {
        if IsName(name) {
          ResolveName(Resolve(cwd, dir), name);
        }
      }
      Guard(source, destination, stat)
  }

  /** With an absolute destination directory the source and the corrected
      compression agree. */
  lemma CompressAgreesOnAbsoluteDirectory(sourcePath: string, dir: string, cwd: Path, stat: Path -> Stat)
    requires IsAbsolutePath(cwd)
    requires StartsWith(dir, "/")
    ensures CompressFile(sourcePath, Some(dir), cwd, stat)
            == CompressFileResolved(sourcePath, Some(dir), cwd, stat)
  {
    var source := Resolve(cwd, sourcePath);
    var name := CompressedName(source);
    JoinPathName(dir, name);
    ResolveName(Resolve(cwd, dir), name);
    assert JoinPath(dir, "") == Walk(Root, Split(dir, '/') + [""]);
    WalkConcat(Root, Split(dir, '/'), [""]);
    assert Walk(Walk(Root, Split(dir, '/')), [""]) == Walk(Root, Split(dir, '/'));
  }

  /** With an absolute destination directory the source and the corrected
      decompression agree. */
  lemma DecompressAgreesOnAbsoluteDirectory(sourcePath: string, dir: string, cwd: Path, stat: Path -> Stat)
    requires IsAbsolutePath(cwd)
    requires StartsWith(dir, "/")
    ensures DecompressFile(sourcePath, Some(dir), cwd, stat)
            == DecompressFileResolved(sourcePath, Some(dir), cwd, stat)
  {
    JoinAbsolute(cwd, dir, DecompressedName(Resolve(cwd, sourcePath)));
  }

  /** The round trip of the file names: compressing a file into a directory
      and then decompressing the archive, from any session directory, into
      another directory writes a file with the original name there. */
  lemma CompressThenDecompress(sourcePath: string, dir: string, cwd: Path, stat: Path -> Stat,
                               dir2: string, cwd2: Path, stat2: Path -> Stat)
    requires IsAbsolutePath(cwd) && IsAbsolutePath(cwd2)
    requires Resolve(cwd, sourcePath) != Root
    requires CompressFileResolved(sourcePath, Some(dir), cwd, stat).Ok?
    requires stat2(CompressFileResolved(sourcePath, Some(dir), cwd, stat).value.destination)
             == Found(RegularFile)
    ensures var t := CompressFileResolved(sourcePath, Some(dir), cwd, stat).value;
            var u := DecompressFileResolved(Render(t.destination), Some(dir2), cwd2, stat2);
            && u.Ok?
            && u.value.source == t.destination
            && Dirname(u.value.destination) == Resolve(cwd2, dir2)
            && BaseName(u.value.destination) == BaseName(t.source)
  {
    var t := CompressFileResolved(sourcePath, Some(dir), cwd, stat).value;
    ResolveRender(cwd2, t.destination);
    NameRoundTrip(t.source, t.destination);
  }

  /** The same round trip for the program as written, when both destination
      directories are absolute: there the written operations agree with the
      corrected ones, so the file named by compression comes back under its
      original name. */
  lemma CompressThenDecompressAbsolute(sourcePath: string, dir: string, cwd: Path, stat: Path -> Stat,
                                       dir2: string, cwd2: Path, stat2: Path -> Stat)
    requires IsAbsolutePath(cwd) && IsAbsolutePath(cwd2)
    requires StartsWith(dir, "/") && StartsWith(dir2, "/")
    requires Resolve(cwd, sourcePath) != Root
    requires CompressFile(sourcePath, Some(dir), cwd, stat).Ok?
    requires stat2(CompressFile(sourcePath, Some(dir), cwd, stat).value.destination) == Found(RegularFile)
    ensures var t := CompressFile(sourcePath, Some(dir), cwd, stat).value;
            var u := DecompressFile(Render(t.destination), Some(dir2), cwd2, stat2);
            && u.Ok?
            && u.value.source == t.destination
            && Dirname(u.value.destination) == Resolve(cwd2, dir2)
            && BaseName(u.value.destination) == BaseName(t.source)
  {
    CompressAgreesOnAbsoluteDirectory(sourcePath, dir, cwd, stat);
    var t := CompressFile(sourcePath, Some(dir), cwd, stat).value;
    DecompressAgreesOnAbsoluteDirectory(Render(t.destination), dir2, cwd2, stat2);
    CompressThenDecompress(sourcePath, dir, cwd, stat, dir2, cwd2, stat2);
  }
}

=== FILE: commands.dfy ===
/** Reading one input line into a command (the `line` handler of index.js),
    the `os` flag table, and the `--username=` start-up argument. */
module Commands {
  import opened Wrappers
  import opened Text

  /** The five flags `os` understands. */
  datatype OsFlag = EndOfLine | Cpus | HomeDirectory | SystemUser | Architecture

  /** The operands of `rn`, `cp`, `mv`, `compress` and `decompress`: the first
      two tokens of the trimmed rest of the line. The first always exists
      (possibly empty); the second is `undefined` when the rest has no space. */
  datatype Operands = Operands(first: string, second: Option<string>)

  datatype Command =
    | Exit                                // .exit
    | PrintDirectory                      // nwd
    | Up                                  // up
    | ChangeDirectory(target: string)     // cd
    | List                                // ls
    | Read(target: string)                // cat
    | Create(target: string)              // add
    | Rename(operands: Operands)          // rn
    | Copy(operands: Operands)            // cp
    | Move(operands: Operands)            // mv
    | Remove(target: string)              // rm
    | Hash(target: string)                // hash
    | Compress(operands: Operands)        // compress
    | Decompress(operands: Operands)      // decompress
    | OsInfo(flag: OsFlag)                // os with a known flag
    | UnknownOsFlag(text: string)         // os with anything else
    | Unknown(word: string)               // no such command

  /** The command words the dispatcher recognises. */
  const Keywords: set<string> :=
    {"nwd", "up", "cd", "ls", "cat", "add", "rn", "cp", "mv", "rm", "hash",
     "compress", "decompress", "os"}

  /** The word a command is typed with. */
  function Keyword(c: Command): string {
    match c
    case Exit => ".exit"
    case PrintDirectory => "nwd"
    case Up => "up"
    case ChangeDirectory(_) => "cd"
    case List => "ls"
    case Read(_) => "cat"
    case Create(_) => "add"
    case Rename(_) => "rn"
    case Copy(_) => "cp"
    case Move(_) => "mv"
    case Remove(_) => "rm"
    case Hash(_) => "hash"
    case Compress(_) => "compress"
    case Decompress(_) => "decompress"
    case OsInfo(_) => "os"
    case UnknownOsFlag(_) => "os"
    case Unknown(w) => w
  }

  /** The text of each `os` flag. */
  function FlagText(f: OsFlag): string {
    match f
    case EndOfLine => "--EOL"
    case Cpus => "--cpus"
    case HomeDirectory => "--homedir"
    case SystemUser => "--username"
    case Architecture => "--architecture"
  }

  /** The inner `switch (line)` of `os`: an exact match against the five flag
      texts, with no trimming. */
  function ParseOsFlag(text: string): (r: Option<OsFlag>)
    ensures r.Some? ==> FlagText(r.value) == text
    ensures r.None? <==> forall f: OsFlag :: FlagText(f) != text
  {
    if text == "--EOL" then Some(EndOfLine)
    else if text == "--cpus" then Some(Cpus)
    else if text == "--homedir" then Some(HomeDirectory)
    else if text == "--username" then Some(SystemUser)
    else if text == "--architecture" then Some(Architecture)
    else None
  }

  /** The text after the first `sep` of `s`, or "" when there is none. */
  function AfterFirst(s: string, sep: char): string {
    match IndexOf(s, sep)
    case None => ""
    case Some(i) => s[i + 1..]
  }

  /** `const [command, ...args] = t.split(" "); const line = args.join(" ")`:
      the command is the text before the first space, and because joining the
      split pieces restores the text, the rest is exactly the text after it. */
  function SplitCommand(t: string): (r: (string, string))
    ensures r.0 == FirstField(t, ' ')
    ensures r.1 == AfterFirst(t, ' ')
    ensures ' ' in t ==> t == r.0 + " " + r.1
    ensures ' ' !in t ==> r == (t, "")
  {
    var words := Split(t, ' ');
    JoinSplit(t, ' ');
    match IndexOf(t, ' ')
    case None => (words[0], Join(words[1..], ' '))
    case Some(i) =>
      JoinSplit(t[i + 1..], ' ');
      assert t == t[..i] + " " + t[i + 1..];
      (words[0], Join(words[1..], ' '))
  }

  /** `const [a, b] = line.trim().split(" ")`: the first two space-separated
      tokens of the trimmed text; any further tokens are dropped. */
  function SplitOperands(line: string): (r: Operands)
    ensures r.first == FirstField(Trim(line), ' ')
    ensures r.second.None? <==> ' ' !in Trim(line)
    ensures r.second.Some? ==> r.second.value == FirstField(AfterFirst(Trim(line), ' '), ' ')
  {
    var t := Trim(line);
    var words := Split(t, ' ');
    match IndexOf(t, ' ')
    case None => Operands(words[0], None)
    case Some(i) =>
      SplitFirst(t[i + 1..], ' ');
      Operands(words[0], Some(words[1]))
  }

  /** The commands that take no argument; whatever follows them is ignored. */
  const PlainWords: set<string> := {"nwd", "up", "ls"}

  /** The commands that take the whole rest of the line as one path. */
  const TargetWords: set<string> := {"cd", "cat", "add", "rm", "hash"}

  /** The commands that take two operands. */
  const OperandWords: set<string> := {"rn", "cp", "mv", "compress", "decompress"}

  function PlainCommand(word: string): (c: Command)
    requires word in PlainWords
    ensures Keyword(c) == word
    ensures c.PrintDirectory? || c.Up? || c.List?
  {
    if word == "nwd" then PrintDirectory
    else if word == "up" then Up
    else List
  }

  function TargetCommand(word: string, target: string): (c: Command)
    requires word in TargetWords
    ensures Keyword(c) == word
    ensures (c.ChangeDirectory? || c.Read? || c.Create? || c.Remove? || c.Hash?) && c.target == target
  {
    if word == "cd" then ChangeDirectory(target)
    else if word == "cat" then Read(target)
    else if word == "add" then Create(target)
    else if word == "rm" then Remove(target)
    else Hash(target)
  }

  function OperandCommand(word: string, operands: Operands): (c: Command)
    requires word in OperandWords
    ensures Keyword(c) == word
    ensures (c.Rename? || c.Copy? || c.Move? || c.Compress? || c.Decompress?) && c.operands == operands
  {
    if word == "rn" then Rename(operands)
    else if word == "cp" then Copy(operands)
    else if word == "mv" then Move(operands)
    else if word == "compress" then Compress(operands)
    else Decompress(operands)
  }

  /** `os`: the rest of the line, untrimmed, must be one of the flag texts. */
  function OsCommand(rest: string): (c: Command)
    ensures Keyword(c) == "os"
    ensures c.OsInfo? <==> ParseOsFlag(rest).Some?
    ensures c.OsInfo? ==> FlagText(c.flag) == rest
    ensures !c.OsInfo? ==> c == UnknownOsFlag(rest)
  {
    match ParseOsFlag(rest)
    case Some(f) => OsInfo(f)
    case None => UnknownOsFlag(rest)
  }

  /** The `switch (command)` of the line handler. */
  function Dispatch(word: string, rest: string): (c: Command)
    ensures !c.Exit?
    ensures Keyword(c) == word
    ensures c.Unknown? <==> word !in Keywords
    ensures (c.ChangeDirectory? || c.Read? || c.Create? || c.Remove? || c.Hash?)
              ==> c.target == rest
    ensures (c.Rename? || c.Copy? || c.Move? || c.Compress? || c.Decompress?)
              ==> c.operands == SplitOperands(rest)
    ensures c.OsInfo? ==> FlagText(c.flag) == rest
    ensures c.UnknownOsFlag? ==> c.text == rest
    ensures word == "os" ==> c == OsCommand(rest)
  {
    if word == "os" then OsCommand(rest)
    else if word in PlainWords then PlainCommand(word)
    else if word in TargetWords then TargetCommand(word, rest)
    else if word in OperandWords then OperandCommand(word, SplitOperands(rest))
    else Unknown(word)
  }

  /** The whole line handler: `.exit` on the trimmed line ends the session
      before anything is split; otherwise the first word of the trimmed line
      picks the command and the text after its first space is the argument. */
  function ParseLine(input: string): (c: Command)
    ensures c.Exit? <==> Trim(input) == ".exit"
    ensures !c.Exit? ==> Keyword(c) == FirstField(Trim(input), ' ')
    ensures c.Unknown? <==> Trim(input) != ".exit" && FirstField(Trim(input), ' ') !in Keywords
    ensures (c.ChangeDirectory? || c.Read? || c.Create? || c.Remove? || c.Hash?)
              ==> c.target == AfterFirst(Trim(input), ' ')
    ensures (c.Rename? || c.Copy? || c.Move? || c.Compress? || c.Decompress?)
              ==> c.operands == SplitOperands(AfterFirst(Trim(input), ' '))
    ensures (Trim(input) != ".exit" && FirstField(Trim(input), ' ') == "os")
              ==> c == OsCommand(AfterFirst(Trim(input), ' '))
  {
    var t := Trim(input);
    if t == ".exit" then Exit
    else
      var (word, rest) := SplitCommand(t);
      Dispatch(word, rest)
  }

  /** A line holding one word and nothing else dispatches that word with an
      empty argument, whatever white space surrounds it. */
  lemma ParseSingleWord(pre: string, word: string, post: string)
    requires AllSpace(pre) && AllSpace(post)
    requires word != [] && !IsSpace(word[0]) && !IsSpace(word[|word| - 1])
    requires ' ' !in word && word != ".exit"
    ensures ParseLine(pre + word + post) == Dispatch(word, "")
  {
    TrimPadded(pre, word, post);
  }

  /** The start-up argument that names the user. */
  const UsernameFlag := "--username="

  predicate IsUsernameFlag(arg: string) {
    StartsWith(arg, UsernameFlag)
  }

  /** The name a `--username=` argument carries: the text between its first
      and its second `=` (so `--username=a=b` names `a`). */
  function FlagValue(arg: string): string
    requires IsUsernameFlag(arg)
  {
    FirstField(arg[|UsernameFlag|..], '=')
  }

  /** `arg.split("=")[1]` for an argument that starts with `--username=`. */
  function SplitValue(arg: string): (r: string)
    requires IsUsernameFlag(arg)
    ensures r == FlagValue(arg)
  {
    var u := arg[|UsernameFlag|..];
    assert arg[..10] == "--username" && arg[10] == '=' by {
      assert arg[..11] == UsernameFlag;
    }
    IndexOfAt(arg, '=', 10);
    assert Split(arg, '=') == [arg[..10]] + Split(u, '=');
    SplitFirst(u, '=');
    Split(arg, '=')[1]
  }

  /** The `forEach` over the start-up arguments, continuing from the name
      `current`: every `--username=` argument overwrites the name, so the
      last one wins, and without one the name stays as it was. */
  function ScanUsername(current: string, args: seq<string>): (name: string)
    ensures (forall i | 0 <= i < |args| :: !IsUsernameFlag(args[i])) ==> name == current
    ensures forall k | 0 <= k < |args| && IsUsernameFlag(args[k])
                       && (forall j | k < j < |args| :: !IsUsernameFlag(args[j])) ::
              name == FlagValue(args[k])
    decreases |args|
  {
    if |args| == 0 then current
    else
      var next := if IsUsernameFlag(args[0]) then SplitValue(args[0]) else current;
      var tail := args[1..];
      assert forall i | 0 <= i < |tail| :: tail[i] == args[i + 1];
      ScanUsername(next, tail)
  }

  /** The user name read from the start-up arguments, "" when none is given. */
  function Username(args: seq<string>): (name: string)
    ensures (forall i | 0 <= i < |args| :: !IsUsernameFlag(args[i])) ==> name == ""
    ensures forall k | 0 <= k < |args| && IsUsernameFlag(args[k])
                       && (forall j | k < j < |args| :: !IsUsernameFlag(args[j])) ::
              name == FlagValue(args[k])
  {
    ScanUsername("", args)
  }
}

=== FILE: dispatcher.dfy ===
/** The session and its read-eval loop (index.js): one input line at a time is
    parsed and handled; only `cd` and `up` change the current directory. The
    session ends on `.exit`, and also on `ls` in a directory that cannot be
    read: `showTable` is neither awaited nor given a handler, so the failure
    of its `readdir` is an unhandled rejection, which ends a Node.js process.
    The file-system handlers are not run here: a line that reaches one is
    reported as delegated, with the command it was parsed into. */
module Dispatcher {
  import opened Wrappers
  import opened Text
  import opened Paths
  import opened FileStat
  import opened Navigation
  import opened Commands
  import opened Archive
  import Listing

  /** The process-wide state of index.js: the current directory and the user
      name read once at start-up. */
  datatype Session = Session(cwd: Path, username: string)

  datatype State = Running(session: Session) | Closed(session: Session)

  /** What one line produces besides the new state. */
  datatype Notice =
    | Goodbye                      // .exit: the process exits with status 0
    | Crashed                      // ls: readdir rejected and nothing handles it
    | ListFailed                   // ls with the rejection reported ("Operation failed")
    | Navigated(report: Report)    // nwd, up, cd
    | Delegated(command: Command)  // handled by a file-system or os handler
    | UnknownOperation             // "Invalid input. Unknown operation."
    | UnknownOsCommand             // "Invalid input. Unknown operating system command."

  datatype Reply = Reply(state: State, notice: Notice)

  /** The commands the loop hands to a handler of their own without looking
      at the outcome (`ls` only when its directory can be read). */
  predicate HandedOver(c: Command) {
    c.Read? || c.Create? || c.Rename? || c.Copy? || c.Move? || c.Remove? || c.Hash?
    || c.Compress? || c.Decompress? || c.OsInfo?
  }

  /** The session at start-up: the process's working directory and the name
      given by the last `--username=` argument. */
  function Start(cwd: Path, args: seq<string>): (s: Session)
    requires IsAbsolutePath(cwd)
    ensures IsAbsolutePath(s.cwd) && s.cwd == cwd
    ensures s.username == Username(args)
    ensures (forall i | 0 <= i < |args| :: !IsUsernameFlag(args[i])) ==> s.username == ""
  {
    Session(cwd, Username(args))
  }

  /** Handles one parsed line. `listable(p)` says whether `readdir` of `p`
      succeeds; `accessible(p)` whether `fs.promises.access` accepts `p`. */
  function Handle(s: Session, c: Command, accessible: Path -> bool, listable: Path -> bool): (r: Reply)
    requires IsAbsolutePath(s.cwd)
    ensures IsAbsolutePath(r.state.session.cwd)
    ensures r.state.session.username == s.username
    ensures r.state.Closed? <==> c.Exit? || (c.List? && !listable(s.cwd))
    ensures r.state.Closed? ==> r.state.session == s
    ensures !(c.Up? || c.ChangeDirectory?) ==> r.state.session == s
    ensures c.ChangeDirectory? ==> r.state.session.cwd == s.cwd || accessible(r.state.session.cwd)
    ensures c.Up? ==> r.state.session.cwd == Resolve(s.cwd, "..")
  {
    match c
    case Exit => Reply(Closed(s), Goodbye)
    case PrintDirectory => Reply(Running(s), Navigated(Shown(s.cwd)))
    case Up =>
      var n := GoUp(s.cwd);
      ResolveParent(s.cwd);
      Reply(Running(s.(cwd := n.cwd)), Navigated(n.report))
    case ChangeDirectory(target) =>
      var n := NavDirectory(s.cwd, target, accessible);
      Reply(Running(s.(cwd := n.cwd)), Navigated(n.report))
    case List => if listable(s.cwd) then Reply(Running(s), Delegated(c)) else Reply(Closed(s), Crashed)
    case UnknownOsFlag(_) => Reply(Running(s), UnknownOsCommand)
    case Unknown(_) => Reply(Running(s), UnknownOperation)
    case Read(_) | Create(_) | Rename(_) | Copy(_) | Move(_) | Remove(_) | Hash(_)
       | Compress(_) | Decompress(_) | OsInfo(_) =>
      Reply(Running(s), Delegated(c))
  }

  /** What each command reports: `.exit` says goodbye, `nwd` shows the
      directory, `ls` hands over to `showTable` or ends the process, the
      file-system and `os` commands are handed over as parsed, and unknown
      words and flags are reported. */
  lemma HandleNotices(s: Session, c: Command, accessible: Path -> bool, listable: Path -> bool)
    requires IsAbsolutePath(s.cwd)
    ensures var r := Handle(s, c, accessible, listable);
            && (c.Exit? ==> r == Reply(Closed(s), Goodbye))
            && (c.PrintDirectory? ==> r == Reply(Running(s), Navigated(Shown(s.cwd))))
            && (c.List? && listable(s.cwd) ==> r == Reply(Running(s), Delegated(List)))
            && (c.List? && !listable(s.cwd) ==> r == Reply(Closed(s), Crashed))
            && (HandedOver(c) ==> r == Reply(Running(s), Delegated(c)))
            && (c.Unknown? ==> r == Reply(Running(s), UnknownOperation))
            && (c.UnknownOsFlag? ==> r == Reply(Running(s), UnknownOsCommand))
  {
  }

  /** `up` moves where `goUp` moves and reports what it reports: at the root,
      that it cannot go higher. */
  lemma HandleUp(s: Session, accessible: Path -> bool, listable: Path -> bool)
    requires IsAbsolutePath(s.cwd)
    ensures Handle(s, Up, accessible, listable)
            == Reply(Running(s.(cwd := GoUp(s.cwd).cwd)), Navigated(GoUp(s.cwd).report))
    ensures s.cwd == Root ==> Handle(s, Up, accessible, listable).notice == Navigated(CannotGoHigher(s.cwd))
  {
  }

  /** `cd` moves where `navDirectory` moves and reports what it reports. */
  lemma HandleChangeDirectory(s: Session, c: Command, accessible: Path -> bool, listable: Path -> bool)
    requires IsAbsolutePath(s.cwd)
    ensures c.ChangeDirectory? ==>
              var n := NavDirectory(s.cwd, c.target, accessible);
              Handle(s, c, accessible, listable) == Reply(Running(s.(cwd := n.cwd)), Navigated(n.report))
  {
  }

  /** Handles one input line: the session closes on `.exit`, and on `ls` in
      a directory that cannot be read. */
  function Step(s: Session, line: string, accessible: Path -> bool, listable: Path -> bool): (r: Reply)
    requires IsAbsolutePath(s.cwd)
    ensures IsAbsolutePath(r.state.session.cwd)
    ensures r.state.session.username == s.username
    ensures r.state.Closed? <==> Trim(line) == ".exit" || (ParseLine(line).List? && !listable(s.cwd))
    ensures ParseLine(line).Unknown? ==> r == Reply(Running(s), UnknownOperation)
    ensures HandedOver(ParseLine(line)) ==> r == Reply(Running(s), Delegated(ParseLine(line)))
    ensures ParseLine(line).ChangeDirectory? ==>
              var n := NavDirectory(s.cwd, ParseLine(line).target, accessible);
              r == Reply(Running(s.(cwd := n.cwd)), Navigated(n.report))
  {
    HandleNotices(s, ParseLine(line), accessible, listable);
    HandleChangeDirectory(s, ParseLine(line), accessible, listable);
    Handle(s, ParseLine(line), accessible, listable)
  }

  /** A line that neither exits nor lists, the two that can end the session. */
  predicate KeepsOpen(line: string) {
    Trim(line) != ".exit" && !ParseLine(line).List?
  }

  /** Feeds the lines to the loop in order; once closed, the process is gone
      and later lines have no effect. */
  function Run(st: State, lines: seq<string>, accessible: Path -> bool, listable: Path -> bool): (r: State)
    requires IsAbsolutePath(st.session.cwd)
    ensures IsAbsolutePath(r.session.cwd)
    ensures r.session.username == st.session.username
    ensures st.Closed? ==> r == st
    ensures (forall i | 0 <= i < |lines| :: KeepsOpen(lines[i])) ==> r.Running? == st.Running?
    decreases |lines|
  {
    if st.Closed? || |lines| == 0 then st
    else
      var tail := lines[1..];
      assert forall i | 0 <= i < |tail| :: tail[i] == lines[i + 1];
      Run(Step(st.session, lines[0], accessible, listable).state, tail, accessible, listable)
  }

  /** The access check never rejects the parent of a path it accepts. This is
      how `fs.access` behaves on an unchanging file system: reaching a path
      requires reaching every directory above it. */
  ghost predicate ParentClosed(accessible: Path -> bool) {
    forall p: Path | IsAbsolutePath(p) && accessible(p) :: accessible(Dirname(p))
  }

  /** The directory invariant: a session that starts in an accessible
      directory is in one after any sequence of lines. `cd` checks its target
      and `up` moves to a parent, so no line leads to a path the check
      rejects. */
  lemma {:induction false} RunKeepsAccessible(st: State, lines: seq<string>, accessible: Path -> bool, listable: Path -> bool)
    requires IsAbsolutePath(st.session.cwd)
    requires ParentClosed(accessible)
    requires accessible(st.session.cwd)
    ensures accessible(Run(st, lines, accessible, listable).session.cwd)
    decreases |lines|
  {
    if !(st.Closed? || |lines| == 0) {
      var next := Step(st.session, lines[0], accessible, listable).state;
      if ParseLine(lines[0]).Up? {
        ResolveParent(st.session.cwd);
      }
      RunKeepsAccessible(next, lines[1..], accessible, listable);
    }
  }

  /** `n` lines that each say `up`. */
  function UpLines(n: nat): (lines: seq<string>)
    ensures |lines| == n
    ensures forall i | 0 <= i < n :: lines[i] == "up"
  {
    if n == 0 then [] else ["up"] + UpLines(n - 1)
  }

  /** The line `up` is parsed into the `up` command. */
  lemma ParseUp()
    ensures ParseLine("up") == Up
  {
    assert ' ' !in "up" && !IsSpace('u') && !IsSpace('p');
    ParseSingleWord("", "up", "");
    assert "" + "up" + "" == "up";
    assert Dispatch("up", "") == PlainCommand("up") by {
      assert "up" != "os" && "up" in PlainWords;
    }
  }

  /** One `up` line moves the session to the parent directory, or keeps it
      at the root. */
  lemma StepUp(s: Session, accessible: Path -> bool, listable: Path -> bool)
    requires IsAbsolutePath(s.cwd)
    ensures Step(s, "up", accessible, listable).state == Running(s.(cwd := GoUp(s.cwd).cwd))
  {
    ParseUp();
  }

  /** Enough `up` lines reach the root, and more of them stay there. */
  lemma {:induction false} UpsReachRoot(s: Session, n: nat, accessible: Path -> bool, listable: Path -> bool)
    requires IsAbsolutePath(s.cwd)
    requires n >= |s.cwd.segments|
    ensures Run(Running(s), UpLines(n), accessible, listable) == Running(s.(cwd := Root))
    decreases n
  {
    if n > 0 {
      StepUp(s, accessible, listable);
      assert UpLines(n)[1..] == UpLines(n - 1);
      UpsReachRoot(s.(cwd := GoUp(s.cwd).cwd), n - 1, accessible, listable);
    }
  }

  /** At the root, any number of `up` lines leaves the session as it is. */
  lemma UpsAtRoot(s: Session, n: nat, accessible: Path -> bool, listable: Path -> bool)
    requires IsAbsolutePath(s.cwd) && s.cwd == Root
    ensures Run(Running(s), UpLines(n), accessible, listable) == Running(s)
  {
    UpsReachRoot(s, n, accessible, listable);
  }

  /** A running session handles the first line, then the rest. */
  lemma RunCons(st: State, line: string, rest: seq<string>, accessible: Path -> bool, listable: Path -> bool)
    requires IsAbsolutePath(st.session.cwd) && st.Running?
    ensures Run(st, [line] + rest, accessible, listable) == Run(Step(st.session, line, accessible, listable).state, rest, accessible, listable)
  {
    assert ([line] + rest)[1..] == rest;
  }

  /** The first element split off a concatenation. */
  lemma Uncons(a: seq<string>, b: seq<string>)
    requires a != []
    ensures a + b == [a[0]] + (a[1..] + b)
  {
  }

  /** Running two blocks of lines is running the first, then the second
      from where the first left off. */
  lemma {:induction false} RunAppend(st: State, a: seq<string>, b: seq<string>, accessible: Path -> bool, listable: Path -> bool)
    requires IsAbsolutePath(st.session.cwd)
    ensures Run(st, a + b, accessible, listable) == Run(Run(st, a, accessible, listable), b, accessible, listable)
    decreases |a|
  {
    if a == [] {
      assert a + b == b;
    } else if st.Running? {
      Uncons(a, b);
      RunCons(st, a[0], a[1..] + b, accessible, listable);
      Uncons(a, []);
      assert a + [] == a && a[1..] + [] == a[1..];
      RunCons(st, a[0], a[1..], accessible, listable);
      RunAppend(Step(st.session, a[0], accessible, listable).state, a[1..], b, accessible, listable);
    }
  }

  /** Lines after `.exit` are never read. */
  lemma ExitEndsRun(st: State, before: seq<string>, exit: string, after: seq<string>,
                    accessible: Path -> bool, listable: Path -> bool)
    requires IsAbsolutePath(st.session.cwd)
    requires Trim(exit) == ".exit"
    ensures Run(st, before + [exit] + after, accessible, listable) == Run(st, before + [exit], accessible, listable)
    ensures Run(st, before + [exit], accessible, listable).Closed?
  {
    RunAppend(st, before + [exit], after, accessible, listable);
    RunAppend(st, before, [exit], accessible, listable);
    RunExitLine(Run(st, before, accessible, listable), exit, accessible, listable);
  }

  /** The line `.exit` closes the session, whatever state it meets. */
  lemma RunExitLine(st: State, exit: string, accessible: Path -> bool, listable: Path -> bool)
    requires IsAbsolutePath(st.session.cwd)
    requires Trim(exit) == ".exit"
    ensures Run(st, [exit], accessible, listable) == Closed(st.session)
  {
    if st.Running? {
      RunCons(st, exit, [], accessible, listable);
      assert [exit] + [] == [exit];
    }
  }

  /** The line `ls` is parsed into the `ls` command. */
  lemma ParseList()
    ensures ParseLine("ls") == List
  {
    assert ' ' !in "ls" && !IsSpace('l') && !IsSpace('s');
    ParseSingleWord("", "ls", "");
    assert "" + "ls" + "" == "ls";
    assert Dispatch("ls", "") == PlainCommand("ls") by {
      assert "ls" != "os" && "ls" in PlainWords;
    }
  }

  /** As written: `ls` in a directory `readdir` rejects ends the process, and
      none of the lines still to come is handled. */
  lemma ListCrashes(s: Session, lsLine: string, after: seq<string>,
                    accessible: Path -> bool, listable: Path -> bool)
    requires IsAbsolutePath(s.cwd)
    requires ParseLine(lsLine).List? && !listable(s.cwd)
    ensures Step(s, lsLine, accessible, listable) == Reply(Closed(s), Crashed)
    ensures Run(Running(s), [lsLine] + after, accessible, listable) == Closed(s)
  {
    HandleNotices(s, ParseLine(lsLine), accessible, listable);
    RunCons(Running(s), lsLine, after, accessible, listable);
  }

  /** The way into such a directory: `fs.promises.access` asks only whether a
      path exists, so `cd` accepts a regular file as the new directory, and
      the `ls` after it ends the session there. */
  lemma CdThenListCrashes(s: Session, cdLine: string, lsLine: string,
                          accessible: Path -> bool, listable: Path -> bool)
    requires IsAbsolutePath(s.cwd)
    requires ParseLine(cdLine).ChangeDirectory? && ParseLine(lsLine).List?
    requires accessible(Resolve(s.cwd, ParseLine(cdLine).target))
    requires !listable(Resolve(s.cwd, ParseLine(cdLine).target))
    ensures Run(Running(s), [cdLine, lsLine], accessible, listable)
            == Closed(s.(cwd := Resolve(s.cwd, ParseLine(cdLine).target)))
  {
    var moved := s.(cwd := Resolve(s.cwd, ParseLine(cdLine).target));
    RunTwo(s, cdLine, lsLine, accessible, listable);
    StepMoves(s, cdLine, accessible, listable);
    ListCrashes(moved, lsLine, [], accessible, listable);
  }

  /** Two lines from a running session: the second is handled from where the
      first left off. */
  lemma RunTwo(s: Session, a: string, b: string, accessible: Path -> bool, listable: Path -> bool)
    requires IsAbsolutePath(s.cwd)
    ensures var next := Step(s, a, accessible, listable).state;
            && Run(Running(s), [a, b], accessible, listable) == Run(next, [b], accessible, listable)
            && (next.Running? ==> Run(next, [b], accessible, listable) == Step(next.session, b, accessible, listable).state)
  {
    assert [a, b][1..] == [b];
    assert [b][1..] == [];
  }

  /** A `cd` line whose target passes the access check moves the session
      there. */
  lemma StepMoves(s: Session, cdLine: string, accessible: Path -> bool, listable: Path -> bool)
    requires IsAbsolutePath(s.cwd)
    requires ParseLine(cdLine).ChangeDirectory?
    requires accessible(Resolve(s.cwd, ParseLine(cdLine).target))
    ensures Step(s, cdLine, accessible, listable).state
            == Running(s.(cwd := Resolve(s.cwd, ParseLine(cdLine).target)))
  {
    var n := NavDirectory(s.cwd, ParseLine(cdLine).target, accessible);
    assert n.cwd == Resolve(s.cwd, ParseLine(cdLine).target);
  }

  /** `ls` as evidently intended: a rejected `readdir` is reported as every
      other handler reports its failure ("Operation failed"), and the session
      goes on; every other line is handled as before. */
  function StepReported(s: Session, line: string, accessible: Path -> bool, listable: Path -> bool): (r: Reply)
    requires IsAbsolutePath(s.cwd)
    ensures IsAbsolutePath(r.state.session.cwd)
    ensures r.state.session.username == s.username
    ensures r.state.Closed? <==> Trim(line) == ".exit"
    ensures ParseLine(line).List? ==> r.state == Running(s) && (r.notice == ListFailed <==> !listable(s.cwd))
    ensures !(ParseLine(line).List? && !listable(s.cwd)) ==> r == Step(s, line, accessible, listable)
  {
    if ParseLine(line).List? && !listable(s.cwd) then Reply(Running(s), ListFailed)
    else Step(s, line, accessible, listable)
  }

  /** The preparation a handed-over `compress` or `decompress` runs:
      `compressFile(source, destination, currentDirectory)` (or
      `decompressFile`) with the line's two operands in order and the
      session directory third. */
  function Prepared(s: Session, c: Command, stat: Path -> Stat): (r: Option<Result<Transfer, Failure>>)
    requires IsAbsolutePath(s.cwd)
    ensures r.Some? <==> c.Compress? || c.Decompress?
    ensures r.Some? ==> (r.value.Ok? <==> c.operands.second.Some?
                                          && stat(Resolve(s.cwd, c.operands.first)) == Found(RegularFile))
    ensures r.Some? && r.value.Ok? ==> r.value.value.source == Resolve(s.cwd, c.operands.first)
    ensures c.Compress? && r.value.Ok? ==>
              r.value.value.destination
              == Child(JoinPath(c.operands.second.value, ""), CompressedName(r.value.value.source))
    ensures c.Decompress? && r.value.Ok? ==>
              r.value.value.destination
              == JoinPath(c.operands.second.value, DecompressedName(r.value.value.source))
  {
    match c
    case Compress(ops) => Some(CompressFile(ops.first, ops.second, s.cwd, stat))
    case Decompress(ops) => Some(DecompressFile(ops.first, ops.second, s.cwd, stat))
    case _ => None
  }

  /** What a handed-over `ls` prints, `showTable(currentDirectory)`, when
      `readdir` of the session directory returns `names`: a row for every
      name whose lookup succeeds, as often as the name occurs, and nothing
      else, directories before files and each type in name order. */
  function Printed(s: Session, c: Command, names: seq<string>, stat: Path -> Stat,
                   le: (string, string) -> bool): (r: Option<seq<Listing.Entry>>)
    requires IsAbsolutePath(s.cwd) && Listing.TotalPreorder(le)
    ensures r.Some? <==> c.List?
    ensures r.Some? ==> forall e: Listing.Entry ::
              multiset(r.value)[e] == if Listing.Listed(s.cwd, stat, e) then multiset(names)[e.name] else 0
    ensures r.Some? ==> forall i, j | 0 <= i < j < |r.value| ::
              !(r.value[i].entryType == Listing.FileEntry && r.value[j].entryType == Listing.DirectoryEntry)
  {
    if c.List? then Some(Listing.ShowTable(s.cwd, names, stat, le)) else None
  }

  /** A `compress` or `decompress` line leaves the session as it is and
      hands over its first token as the file to read, resolved against the
      session directory, and its second token as the destination directory. */
  lemma ArchiveLine(s: Session, line: string, accessible: Path -> bool, listable: Path -> bool,
                    stat: Path -> Stat)
    requires IsAbsolutePath(s.cwd)
    requires ParseLine(line).Compress? || ParseLine(line).Decompress?
    ensures var r := Step(s, line, accessible, listable);
            var rest := Trim(AfterFirst(Trim(line), ' '));
            var p := Prepared(s, ParseLine(line), stat).value;
            && r == Reply(Running(s), Delegated(ParseLine(line)))
            && (p.Ok? <==> ' ' in rest && stat(Resolve(s.cwd, FirstField(rest, ' '))) == Found(RegularFile))
            && (p.Ok? ==> p.value.source == Resolve(s.cwd, FirstField(rest, ' ')))
  {
    var c := ParseLine(line);
    HandleNotices(s, c, accessible, listable);
    assert c.operands == SplitOperands(AfterFirst(Trim(line), ' '));
  }
}

=== FILE: filestat.dfy ===
/** The answer of `fs.promises.stat`, the one metadata query the core makes.
    The file system itself is not modelled: callers receive the query as a
    function from paths (or entry names) to answers. */
module FileStat {

  /** What `stats.isFile()` and `stats.isDirectory()` distinguish; sockets,
      pipes and devices are `Special`. */
  datatype Kind = RegularFile | Directory | Special

  /** A failed query (missing entry, broken link, no permission) or the kind
      of the entry found. */
  datatype Stat = StatFailed | Found(kind: Kind)
}

=== FILE: listing.dfy ===
/** The `ls` listing (showTable.js): every name the directory holds is looked
    up, the ones whose lookup fails are dropped, the others are classified as
    directory or file, and the entries are sorted directories first and then
    by name. The name order is `localeCompare`, whose collation is not
    modelled: it is received as an arbitrary total preorder `le`, where
    `le(a, b)` means `a.localeCompare(b) <= 0`. Array sorting is stable, so
    entries the comparator cannot tell apart keep their directory order. */
module Listing {
  import opened Paths
  import opened FileStat

  /** The `Type` column. */
  datatype EntryType = DirectoryEntry | FileEntry

  /** One row of the table. */
  datatype Entry = Entry(name: string, entryType: EntryType)

  /** `stats.isDirectory() ? "directory" : "file"`: anything that is not a
      directory, special files included, is listed as a file. */
  function TypeOf(k: Kind): (t: EntryType)
    ensures t == DirectoryEntry <==> k == Directory
  {
    if k == Directory then DirectoryEntry else FileEntry
  }

  /** The row a name produces when its lookup below `dir` succeeds. The
      looked-up path is `path.join(currentDirectory, item)`, which for the
      plain names `readdir` returns is `Child(dir, name)` (`Paths.JoinRendered`). */
  predicate Listed(dir: Path, stat: Path -> Stat, e: Entry) {
    && stat(Child(dir, e.name)).Found?
    && e.entryType == TypeOf(stat(Child(dir, e.name)).kind)
  }

  /** The loop over the names `readdir` returned: a name whose lookup fails
      is reported and skipped, and the loop goes on with the next one. */
  function Classify(dir: Path, names: seq<string>, stat: Path -> Stat): (r: seq<Entry>)
    ensures |r| <= |names|
    ensures forall k | 0 <= k < |r| :: Listed(dir, stat, r[k])
    decreases |names|
  {
    if names == [] then []
    else Row(dir, names[0], stat) + Classify(dir, names[1..], stat)
  }

  /** Nothing is invented and nothing that could be looked up is lost: each
      possible row occurs as often as its name occurs among the names, if
      the lookup gives that row, and not at all otherwise. */
  lemma {:induction false} ClassifyCounts(dir: Path, names: seq<string>, stat: Path -> Stat)
    ensures forall e: Entry :: multiset(Classify(dir, names, stat))[e]
                               == if Listed(dir, stat, e) then multiset(names)[e.name] else 0
    decreases |names|
  {
    if names != [] {
      ClassifyCounts(dir, names[1..], stat);
      assert names == [names[0]] + names[1..];
    }
  }

  /** The rows one name contributes: none when its lookup fails. */
  function Row(dir: Path, name: string, stat: Path -> Stat): (r: seq<Entry>)
    ensures |r| <= 1
    ensures forall e: Entry :: multiset(r)[e] == if e.name == name && Listed(dir, stat, e) then 1 else 0
  {
    match stat(Child(dir, name))
    case StatFailed => []
    case Found(kind) => [Entry(name, TypeOf(kind))]
  }

  /** Skipping is local: the names before a failing lookup and the names after
      it are listed exactly as they would be on their own. */
  lemma {:induction false} ClassifyAppend(dir: Path, a: seq<string>, b: seq<string>, stat: Path -> Stat)
    ensures Classify(dir, a + b, stat) == Classify(dir, a, stat) + Classify(dir, b, stat)
    decreases |a|
  {
    if a != [] {
      assert (a + b)[1..] == a[1..] + b;
      ClassifyAppend(dir, a[1..], b, stat);
      var row := Row(dir, a[0], stat);
      assert row + (Classify(dir, a[1..], stat) + Classify(dir, b, stat))
          == row + Classify(dir, a[1..], stat) + Classify(dir, b, stat);
    } else {
      assert a + b == b;
    }
  }

  /** `localeCompare` orders all strings, consistently: any two compare one
      way or the other, and the order chains. */
  ghost predicate TotalPreorder(le: (string, string) -> bool) {
    && (forall a, b :: le(a, b) || le(b, a))
    && (forall a, b, c :: le(a, b) && le(b, c) ==> le(a, c))
  }

  /** The comparator of `items.sort`, read as "may come first": a directory
      before a file, and two entries of one type by name. */
  predicate EntryLe(le: (string, string) -> bool, a: Entry, b: Entry)
    ensures a.entryType != b.entryType ==> (EntryLe(le, a, b) <==> a.entryType == DirectoryEntry)
  {
    || (a.entryType == DirectoryEntry && b.entryType == FileEntry)
    || (a.entryType == b.entryType && le(a.name, b.name))
  }

  /** The comparator as written: -1 for a directory before a file, 1 for a
      file before a directory, and otherwise the sign of
      `a.Name.localeCompare(b.Name)`, read off the name order. The sort may
      place `a` first exactly when this is not positive. */
  function Compare(le: (string, string) -> bool, a: Entry, b: Entry): (r: int)
    ensures -1 <= r <= 1
    ensures r <= 0 <==> EntryLe(le, a, b)
    ensures r == 0 <==> EntryLe(le, a, b) && EntryLe(le, b, a)
  {
    if a.entryType == DirectoryEntry && b.entryType == FileEntry then -1
    else if a.entryType == FileEntry && b.entryType == DirectoryEntry then 1
    else if le(a.name, b.name) && le(b.name, a.name) then 0
    else if le(a.name, b.name) then -1
    else 1
  }

  /** Entries the comparator ranks equal (it returns 0 both ways). */
  predicate Equivalent(le: (string, string) -> bool, a: Entry, b: Entry) {
    EntryLe(le, a, b) && EntryLe(le, b, a)
  }

  /** The comparator inherits totality from the name order. */
  lemma EntryTotal(le: (string, string) -> bool, a: Entry, b: Entry)
    requires TotalPreorder(le)
    ensures EntryLe(le, a, b) || EntryLe(le, b, a)
  {
  }

  /** The comparator inherits transitivity from the name order. */
  lemma EntryTransitive(le: (string, string) -> bool, a: Entry, b: Entry, c: Entry)
    requires TotalPreorder(le)
    requires EntryLe(le, a, b) && EntryLe(le, b, c)
    ensures EntryLe(le, a, c)
  {
  }

  /** Entries the comparator ranks equal to `e` may precede one another. */
  ghost predicate ClassChained(le: (string, string) -> bool, e: Entry) {
    forall a: Entry, b: Entry :: Equivalent(le, a, e) && Equivalent(le, b, e) ==> EntryLe(le, a, b)
  }

  /** Under a total preorder every equivalence class is chained. */
  lemma Chained(le: (string, string) -> bool, e: Entry)
    requires TotalPreorder(le)
    ensures ClassChained(le, e)
  {
    forall a: Entry, b: Entry | Equivalent(le, a, e) && Equivalent(le, b, e) ensures EntryLe(le, a, b) {
      EntryTransitive(le, a, e, b);
    }
  }

  predicate Sorted(le: (string, string) -> bool, s: seq<Entry>) {
    forall i, j | 0 <= i < j < |s| :: EntryLe(le, s[i], s[j])
  }

  /** Places `x` into the sorted `s` after every entry that may precede it,
      so that it follows the entries it is equivalent to. */
  function Insert(le: (string, string) -> bool, s: seq<Entry>, x: Entry): (r: seq<Entry>)
    ensures multiset(r) == multiset(s) + multiset{x}
    decreases |s|
  {
    if s == [] then [x]
    else
      var last := s[|s| - 1];
      var init := s[..|s| - 1];
      assert s == init + [last];
      if EntryLe(le, last, x) then s + [x]
      else Insert(le, init, x) + [last]
  }

  /** A sorted sequence stays sorted when an entry every element may precede
      is appended. */
  lemma SortedAppend(le: (string, string) -> bool, s: seq<Entry>, y: Entry)
    requires Sorted(le, s)
    requires forall k | 0 <= k < |s| :: EntryLe(le, s[k], y)
    ensures Sorted(le, s + [y])
  {
  }

  /** Inserting into a sorted sequence keeps it sorted. */
  lemma {:induction false} InsertSorted(le: (string, string) -> bool, s: seq<Entry>, x: Entry)
    requires TotalPreorder(le) && Sorted(le, s)
    ensures Sorted(le, Insert(le, s, x))
    decreases |s|
  {
    if s != [] {
      var last := s[|s| - 1];
      var init := s[..|s| - 1];
      if EntryLe(le, last, x) {
        forall k | 0 <= k < |s| ensures EntryLe(le, s[k], x) {
          if k < |s| - 1 {
            EntryTransitive(le, s[k], last, x);
          }
        }
        SortedAppend(le, s, x);
      } else {
        var t := Insert(le, init, x);
        InsertSorted(le, init, x);
        forall k | 0 <= k < |t| ensures EntryLe(le, t[k], last) {
          if t[k] == x {
            EntryTotal(le, last, x);
          } else {
            assert t[k] in multiset(t);
            assert t[k] in init;
            var i :| 0 <= i < |init| && init[i] == t[k];
            assert s[i] == t[k];
          }
        }
        SortedAppend(le, t, last);
      }
    }
  }

  /** The order in which the table is printed. */
  function SortEntries(le: (string, string) -> bool, s: seq<Entry>): (r: seq<Entry>)
    requires TotalPreorder(le)
    ensures Sorted(le, r)
    ensures multiset(r) == multiset(s)
    decreases |s|
  {
    if s == [] then []
    else
      var init := s[..|s| - 1];
      assert s == init + [s[|s| - 1]];
      var sorted := SortEntries(le, init);
      InsertSorted(le, sorted, s[|s| - 1]);
      Insert(le, sorted, s[|s| - 1])
  }

  /** The entries of `s` that the comparator ranks equal to `e`, in order. */
  function Class(le: (string, string) -> bool, s: seq<Entry>, e: Entry): seq<Entry>
    decreases |s|
  {
    if s == [] then []
    else
      var last := s[|s| - 1];
      Class(le, s[..|s| - 1], e) + if Equivalent(le, last, e) then [last] else []
  }

  /** The class of a sequence with one more entry at the end. */
  lemma ClassSnoc(le: (string, string) -> bool, s: seq<Entry>, y: Entry, e: Entry)
    ensures Class(le, s + [y], e) == Class(le, s, e) + if Equivalent(le, y, e) then [y] else []
  {
    assert (s + [y])[..|s|] == s;
  }

  /** An inserted entry lands after the entries equivalent to it. */
  lemma {:induction false} InsertStable(le: (string, string) -> bool, s: seq<Entry>, x: Entry, e: Entry)
    requires ClassChained(le, e)
    ensures Class(le, Insert(le, s, x), e) == Class(le, s, e) + if Equivalent(le, x, e) then [x] else []
    decreases |s|
  {
    if s != [] {
      var last := s[|s| - 1];
      var init := s[..|s| - 1];
      if EntryLe(le, last, x) {
        ClassSnoc(le, s, x, e);
      } else {
        var t := Insert(le, init, x);
        InsertStable(le, init, x, e);
        ClassSnoc(le, t, last, e);
        var xs := if Equivalent(le, x, e) then [x] else [];
        var ls := if Equivalent(le, last, e) then [last] else [];
        assert xs == [] || ls == [];
        assert Class(le, s, e) == Class(le, init, e) + ls;
        assert Class(le, init, e) + xs + ls == Class(le, init, e) + ls + xs;
      }
    }
  }

  /** Sorting is stable: the entries of each equivalence class keep their
      original relative order. */
  lemma {:induction false} SortStable(le: (string, string) -> bool, s: seq<Entry>, e: Entry)
    requires TotalPreorder(le)
    ensures Class(le, SortEntries(le, s), e) == Class(le, s, e)
    decreases |s|
  {
    if s != [] {
      var init := s[..|s| - 1];
      SortStable(le, init, e);
      Chained(le, e);
      InsertStable(le, SortEntries(le, init), s[|s| - 1], e);
    }
  }

  /** `showTable`: the rows in the order they are printed. */
  function ShowTable(dir: Path, names: seq<string>, stat: Path -> Stat,
                     le: (string, string) -> bool): (r: seq<Entry>)
    requires TotalPreorder(le)
    ensures forall k | 0 <= k < |r| :: Listed(dir, stat, r[k])
    ensures forall e: Entry :: multiset(r)[e] == if Listed(dir, stat, e) then multiset(names)[e.name] else 0
    ensures forall i, j | 0 <= i < j < |r| :: !(r[i].entryType == FileEntry && r[j].entryType == DirectoryEntry)
    ensures forall i, j | 0 <= i < j < |r| && r[i].entryType == r[j].entryType :: le(r[i].name, r[j].name)
  {
    var entries := Classify(dir, names, stat);
    ClassifyCounts(dir, names, stat);
    var r := SortEntries(le, entries);
    SortedLayout(le, r);
    forall k | 0 <= k < |r| ensures Listed(dir, stat, r[k]) {
      assert r[k] in multiset(entries);
    }
    r
  }

  /** What the comparator's order means for the table: no file is printed
      above a directory, and the rows of one type are in name order. */
  lemma SortedLayout(le: (string, string) -> bool, r: seq<Entry>)
    requires Sorted(le, r)
    ensures forall i, j | 0 <= i < j < |r| :: !(r[i].entryType == FileEntry && r[j].entryType == DirectoryEntry)
    ensures forall i, j | 0 <= i < j < |r| && r[i].entryType == r[j].entryType :: le(r[i].name, r[j].name)
  {
  }

  /** Entries of one type whose names compare equal keep the order `readdir`
      returned them in. */
  lemma ShowTableStable(dir: Path, names: seq<string>, stat: Path -> Stat,
                        le: (string, string) -> bool, e: Entry)
    requires TotalPreorder(le)
    ensures Class(le, ShowTable(dir, names, stat, le), e) == Class(le, Classify(dir, names, stat), e)
  {
    SortStable(le, Classify(dir, names, stat), e);
  }
}

=== FILE: navigation.dfy ===
/** Moving the session's current directory: `navDirectory` (`cd`) and `goUp`
    (`up`) in index.js. Whether a path can be entered is the outcome of
    `fs.promises.access`, received as the predicate `accessible`. */
module Navigation {
  import opened Paths

  /** What a navigation command reports on the console. */
  datatype Report =
    | Shown(dir: Path)           // "You are currently in <dir>"
    | CannotGoHigher(dir: Path)  // `up` at the root; the directory is shown after it
    | AccessFailed(target: Path) // `cd` whose access check failed

  /** The directory after a navigation command, and what it reported. */
  datatype Nav = Nav(cwd: Path, report: Report)

  /** `cd arg`: the argument is resolved against the current directory and the
      result becomes current only if the access check accepts it. */
  function NavDirectory(cwd: Path, arg: string, accessible: Path -> bool): (r: Nav)
    requires IsAbsolutePath(cwd)
    ensures IsAbsolutePath(r.cwd)
    ensures accessible(Resolve(cwd, arg)) ==> r.cwd == Resolve(cwd, arg) && r.report == Shown(r.cwd)
    ensures !accessible(Resolve(cwd, arg)) ==> r.cwd == cwd && r.report == AccessFailed(Resolve(cwd, arg))
    ensures r.cwd == cwd || accessible(r.cwd)
  {
    var target := Resolve(cwd, arg);
    if accessible(target) then Nav(target, Shown(target))
    else Nav(cwd, AccessFailed(target))
  }

  /** `up`: moves to the parent directory unless the parent's text equals the
      current directory's text, which happens exactly at the root. Unlike
      `cd ..` it consults no access check. */
  function GoUp(cwd: Path): (r: Nav)
    requires IsAbsolutePath(cwd)
    ensures IsAbsolutePath(r.cwd)
    ensures r.report.CannotGoHigher? <==> cwd == Root
    ensures cwd == Root ==> r == Nav(cwd, CannotGoHigher(cwd))
    ensures cwd != Root ==> r == Nav(Resolve(cwd, ".."), Shown(Resolve(cwd, "..")))
    ensures cwd != Root ==> |r.cwd.segments| + 1 == |cwd.segments|
  {
    var parent := Dirname(cwd);
    ResolveParent(cwd);
    if Render(cwd) == Render(parent) then
      RenderInjective(cwd, parent);
      Nav(cwd, CannotGoHigher(cwd))
    else
      Nav(parent, Shown(parent))
  }

  /** At the root `up` is a no-op, however often it is repeated. */
  lemma GoUpAtRootIdempotent(cwd: Path)
    requires IsAbsolutePath(cwd)
    requires Render(Dirname(cwd)) == Render(cwd)
    ensures GoUp(cwd).cwd == cwd
    ensures GoUp(GoUp(cwd).cwd) == GoUp(cwd)
  {
    RenderInjective(cwd, Dirname(cwd));
  }
}

=== FILE: paths.dfy ===
/** POSIX path arithmetic as Node's `path` module does it (`path.resolve`,
    `path.join`, `path.dirname`, `path.basename`), on paths kept in
    normalised form: a root flag, a count of leading `..` steps (relative
    paths only) and a list of plain names. */
module Paths {
  import opened Text

  /** A normalised path. An absolute path never climbs above the root, so its
      `ups` is zero; a relative one may start with `ups` steps of `..`. */
  datatype Path = Path(absolute: bool, ups: nat, segments: seq<string>)

  /** The file-system root, `/`. */
  const Root := Path(true, 0, [])

  /** A segment that normalisation keeps: not empty, not `.` or `..`, no `/`. */
  predicate IsName(s: string) {
    s != "" && s != "." && s != ".." && '/' !in s
  }

  predicate WellFormed(p: Path) {
    && (p.absolute ==> p.ups == 0)
    && forall k | 0 <= k < |p.segments| :: IsName(p.segments[k])
  }

  /** What `path.resolve` returns, and what the session's directory always is. */
  predicate IsAbsolutePath(p: Path) {
    p.absolute && WellFormed(p)
  }

  predicate NoSlash(parts: seq<string>) {
    forall k | 0 <= k < |parts| :: '/' !in parts[k]
  }

  /** The path one level further down, at `name`. */
  function Child(p: Path, name: string): Path {
    p.(segments := p.segments + [name])
  }

  /** One step of normalisation: empty and `.` segments vanish, `..` drops the
      last name (and is lost at the root of an absolute path), a name is
      appended. */
  function Push(p: Path, part: string): (r: Path)
    requires WellFormed(p) && '/' !in part
    ensures WellFormed(r) && r.absolute == p.absolute
  {
    if part == "" || part == "." then p
    else if part == ".." then
      if |p.segments| > 0 then p.(segments := p.segments[..|p.segments| - 1])
      else if p.absolute then p
      else p.(ups := p.ups + 1)
    else Child(p, part)
  }

  /** Normalises the segments `parts`, starting from `p`. */
  function Walk(p: Path, parts: seq<string>): (r: Path)
    requires WellFormed(p) && NoSlash(parts)
    ensures WellFormed(r) && r.absolute == p.absolute
    ensures !p.absolute ==> r.ups >= p.ups
    decreases |parts|
  {
    if |parts| == 0 then p else Walk(Push(p, parts[0]), parts[1..])
  }

  /** The normalised form of a path string `s`, read from `start`. */
  function Parse(start: Path, s: string): (r: Path)
    requires WellFormed(start)
    ensures WellFormed(r) && r.absolute == start.absolute
  {
    Walk(start, Split(s, '/'))
  }

  /** `path.resolve(base, input)` for an absolute `base`: an absolute input
      replaces the base, a relative one is read from it. */
  function Resolve(base: Path, input: string): (r: Path)
    requires IsAbsolutePath(base)
    ensures IsAbsolutePath(r)
  {
    Parse(if StartsWith(input, "/") then Root else base, input)
  }

  /** `path.dirname(p)` of a normalised absolute path. */
  function Dirname(p: Path): (r: Path)
    requires IsAbsolutePath(p)
    ensures IsAbsolutePath(r)
    ensures |p.segments| == 0 ==> r == p
    ensures |p.segments| > 0 ==> Child(r, p.segments[|p.segments| - 1]) == p
  {
    if |p.segments| == 0 then p
    else p.(segments := p.segments[..|p.segments| - 1])
  }

  /** `path.basename(p)` of a normalised absolute path: its last name, or ""
      for the root. */
  function BaseName(p: Path): (r: string)
    requires IsAbsolutePath(p)
    ensures r == "" <==> |p.segments| == 0
    ensures r != "" ==> IsName(r) && Child(Dirname(p), r) == p
  {
    if |p.segments| == 0 then "" else p.segments[|p.segments| - 1]
  }

  /** `path.basename(p, suffix)` of a normalised absolute path: the suffix is
      removed only when the base name is strictly longer than it. */
  function BaseNameWithout(p: Path, suffix: string): (r: string)
    requires IsAbsolutePath(p)
    ensures var b := BaseName(p);
            if EndsWith(b, suffix) && |suffix| < |b| then r + suffix == b else r == b
  {
    var b := BaseName(p);
    if EndsWith(b, suffix) && |suffix| < |b| then b[..|b| - |suffix|] else b
  }

  /** `path.join(dir, name)` for a name that holds no `/`: the two are glued
      with a `/` and normalised, but `dir` is not resolved against anything, so
      a relative `dir` gives a relative result. */
  function JoinPath(dir: string, name: string): (r: Path)
    requires '/' !in name
    ensures WellFormed(r)
    ensures r.absolute <==> StartsWith(dir, "/")
  {
    Walk(Path(StartsWith(dir, "/"), 0, []), Split(dir, '/') + [name])
  }

  /** `path.join` onto an absolute directory text is resolving the name from
      that directory, wherever the resolution starts. */
  lemma JoinAbsolute(base: Path, dir: string, name: string)
    requires IsAbsolutePath(base) && StartsWith(dir, "/") && '/' !in name
    ensures JoinPath(dir, name) == Resolve(Resolve(base, dir), name)
  {
    var d := Resolve(base, dir);
    assert d == Walk(Root, Split(dir, '/'));
    assert Split(name, '/') == [name] by {
      assert IndexOf(name, '/').None?;
    }
    assert !StartsWith(name, "/") by {
      if |name| > 0 {
        assert name[0] in name;
      }
    }
    assert Resolve(d, name) == Walk(d, [name]);
    WalkConcat(Root, Split(dir, '/'), [name]);
  }

  /** `n` copies of the segment `..`. */
  function Ups(n: nat): (r: seq<string>)
    ensures |r| == n
    ensures forall k | 0 <= k < n :: r[k] == ".."
  {
    if n == 0 then [] else [".."] + Ups(n - 1)
  }

  /** The string form of a normalised path. */
  function Render(p: Path): (r: string)
    ensures p.absolute ==> StartsWith(r, "/")
    ensures !p.absolute && p.ups == 0 && |p.segments| == 0 ==> r == "."
  {
    if p.absolute then "/" + Join(p.segments, '/')
    else if p.ups == 0 && |p.segments| == 0 then "."
    else Join(Ups(p.ups) + p.segments, '/')
  }

  /** Appending plain names just extends the path. */
  lemma {:induction false} WalkNames(p: Path, names: seq<string>)
    requires WellFormed(p)
    requires forall k | 0 <= k < |names| :: IsName(names[k])
    ensures NoSlash(names) && Walk(p, names) == p.(segments := p.segments + names)
    decreases |names|
  {
    if |names| > 0 {
      WalkNames(Child(p, names[0]), names[1..]);
      assert p.segments + [names[0]] + names[1..] == p.segments + names;
    }
  }

  /** Normalising a concatenation normalises one part after the other. */
  lemma {:induction false} WalkConcat(p: Path, a: seq<string>, b: seq<string>)
    requires WellFormed(p) && NoSlash(a) && NoSlash(b)
    ensures NoSlash(a + b)
    ensures Walk(p, a + b) == Walk(Walk(p, a), b)
    decreases |a|
  {
    if |a| > 0 {
      assert (a + b)[1..] == a[1..] + b;
      WalkConcat(Push(p, a[0]), a[1..], b);
    } else {
      assert a + b == b;
    }
  }

  /** Resolving the empty string stays at the base. */
  lemma ResolveEmpty(base: Path)
    requires IsAbsolutePath(base)
    ensures Resolve(base, "") == base
  {
    assert Split("", '/') == [""];
    assert Walk(base, [""]) == Walk(base, []);
  }

  /** Resolving a plain name steps into it. */
  lemma ResolveName(base: Path, name: string)
    requires IsAbsolutePath(base) && IsName(name)
    ensures Resolve(base, name) == Child(base, name)
  {
    assert !StartsWith(name, "/") by {
      assert name[0] in name;
    }
    assert IndexOf(name, '/').None?;
    assert Split(name, '/') == [name];
    assert Walk(base, [name]) == Walk(Child(base, name), []);
  }

  /** Resolving `..` is the same as taking the directory name. */
  lemma ResolveParent(base: Path)
    requires IsAbsolutePath(base)
    ensures Resolve(base, "..") == Dirname(base)
  {
    assert IndexOf("..", '/').None?;
    assert Split("..", '/') == [".."];
    assert Walk(base, [".."]) == Walk(Push(base, ".."), []);
  }

  /** An absolute input does not depend on the base it is resolved against. */
  lemma ResolveAbsolute(base1: Path, base2: Path, input: string)
    requires IsAbsolutePath(base1) && IsAbsolutePath(base2)
    requires StartsWith(input, "/")
    ensures Resolve(base1, input) == Resolve(base2, input)
  {
  }

  /** Resolving the string form of an absolute path gives that path back,
      whatever the base. */
  lemma ResolveRender(base: Path, p: Path)
    requires IsAbsolutePath(base) && IsAbsolutePath(p)
    ensures Resolve(base, Render(p)) == p
  {
    var j := Join(p.segments, '/');
    assert Render(p) == ['/'] + j;
    SplitLeadingSeparator(j, '/');
    if |p.segments| == 0 {
      assert Split(j, '/') == [""];
      assert Walk(Root, ["", ""]) == Root;
    } else {
      assert forall k | 0 <= k < |p.segments| :: '/' !in p.segments[k] by {
        forall k | 0 <= k < |p.segments| ensures '/' !in p.segments[k] {
          assert IsName(p.segments[k]);
        }
      }
      SplitJoin(p.segments, '/');
      WalkNames(Root, p.segments);
      assert Walk(Root, [""] + p.segments) == Walk(Root, p.segments);
    }
  }

  /** Two absolute paths with the same string form are the same path, so a
      textual comparison of rendered paths is a comparison of paths. */
  lemma RenderInjective(p: Path, q: Path)
    requires IsAbsolutePath(p) && IsAbsolutePath(q)
    requires Render(p) == Render(q)
    ensures p == q
  {
    ResolveRender(Root, p);
    ResolveRender(Root, q);
  }

  /** Resolving `x` and then a relative `y` is resolving `x/y` at once. */
  lemma ResolveThen(base: Path, x: string, y: string)
    requires IsAbsolutePath(base)
    requires x != "" && !StartsWith(y, "/")
    ensures Resolve(Resolve(base, x), y) == Resolve(base, x + "/" + y)
  {
    var xy := x + "/" + y;
    assert xy == x + ['/'] + y;
    SplitAround(x, y, '/');
    assert StartsWith(xy, "/") <==> StartsWith(x, "/") by {
      assert xy[0] == x[0];
    }
    var start := if StartsWith(x, "/") then Root else base;
    WalkConcat(start, Split(x, '/'), Split(y, '/'));
  }

  /** Joining a plain name onto a directory string puts the name one level
      below that directory's normalised form. */
  lemma JoinPathName(dir: string, name: string)
    requires IsName(name)
    ensures JoinPath(dir, name) == Child(JoinPath(dir, ""), name)
  {
    var start := Path(StartsWith(dir, "/"), 0, []);
    var parts := Split(dir, '/');
    WalkConcat(start, parts, [name]);
    WalkConcat(start, parts, [""]);
  }

  /** A plain directory name joined with a plain file name is the relative
      path of those two names. */
  lemma JoinPathNames(dir: string, name: string)
    requires IsName(dir) && IsName(name)
    ensures JoinPath(dir, name) == Path(false, 0, [dir, name])
  {
    assert !StartsWith(dir, "/") by {
      assert dir[0] in dir;
    }
    assert IndexOf(dir, '/').None?;
    assert Split(dir, '/') + [name] == [dir, name];
    WalkNames(Path(false, 0, []), [dir, name]);
  }

  /** Two names below different directories are different paths. */
  lemma ChildrenDiffer(a: Path, b: Path, dir: string, name: string)
    requires a.absolute == b.absolute && a.ups == b.ups && a != b
    ensures Child(Child(a, dir), name) != Child(Child(b, dir), name)
  {
    var x := Child(Child(a, dir), name).segments;
    var y := Child(Child(b, dir), name).segments;
    assert x[..|x| - 2] == a.segments;
    assert y[..|y| - 2] == b.segments;
  }

  /** Joining a plain name onto the string form of an absolute directory is
      the child of that directory. */
  lemma JoinRendered(dir: Path, name: string)
    requires IsAbsolutePath(dir) && IsName(name)
    ensures JoinPath(Render(dir), name) == Child(dir, name)
  {
    var text := Render(dir);
    JoinPathName(text, name);
    ResolveRender(Root, dir);
    assert StartsWith(text, "/");
    WalkConcat(Root, Split(text, '/'), [""]);
    assert Walk(Walk(Root, Split(text, '/')), [""]) == Walk(Root, Split(text, '/'));
  }
}

=== FILE: text.dfy ===
/** The JavaScript string primitives the file manager relies on:
    `String.prototype.trim`, `split` on a one-character separator,
    `Array.prototype.join`, `indexOf` and `startsWith`. */
module Text {
  import opened Wrappers

  /** The characters `String.prototype.trim` removes: the ECMAScript
      WhiteSpace and LineTerminator code points. */
  predicate IsSpace(c: char) {
    || c == '\t' || c == '\n' || c == '\U{000B}' || c == '\U{000C}' || c == '\r'
    || c == ' ' || c == '\U{00A0}' || c == '\U{1680}'
    || ('\U{2000}' <= c <= '\U{200A}')
    || c == '\U{2028}' || c == '\U{2029}' || c == '\U{202F}' || c == '\U{205F}'
    || c == '\U{3000}' || c == '\U{FEFF}'
  }

  predicate AllSpace(s: string) {
    forall i | 0 <= i < |s| :: IsSpace(s[i])
  }

  /** `s.startsWith(p)`. */
  predicate StartsWith(s: string, p: string) {
    |p| <= |s| && s[..|p|] == p
  }

  /** `s.endsWith(p)`. */
  predicate EndsWith(s: string, p: string) {
    |p| <= |s| && s[|s| - |p|..] == p
  }

  /** `s.indexOf(c)`: the position of the first occurrence of `c`, if any. */
  function IndexOf(s: string, c: char): (r: Option<nat>)
    ensures r.None? <==> c !in s
    ensures r.Some? ==> r.value < |s| && s[r.value] == c && c !in s[..r.value]
  {
    if |s| == 0 then None
    else if s[0] == c then Some(0)
    else
      match IndexOf(s[1..], c)
      case None => None
      case Some(i) => Some(i + 1)
  }

  /** Removes leading white space. */
  function TrimStart(s: string): (r: string)
    ensures |r| <= |s| && r == s[|s| - |r|..]
    ensures AllSpace(s[..|s| - |r|])
    ensures r != [] ==> !IsSpace(r[0])
  {
    if |s| > 0 && IsSpace(s[0]) then
      var r := TrimStart(s[1..]);
      var n := |s| - |r|;
      assert s[..n] == [s[0]] + s[1..][..n - 1];
      assert s[n..] == s[1..][n - 1..];
      r
    else s
  }

  /** Removes trailing white space. */
  function TrimEnd(s: string): (r: string)
    ensures |r| <= |s| && r == s[..|r|]
    ensures AllSpace(s[|r|..])
    ensures r != [] ==> !IsSpace(r[|r| - 1])
  {
    if |s| > 0 && IsSpace(s[|s| - 1]) then
      var init := s[..|s| - 1];
      var r := TrimEnd(init);
      assert s[|r|..] == init[|r|..] + [s[|s| - 1]];
      assert s[..|r|] == init[..|r|];
      r
    else s
  }

  /** `s.trim()`: the result is the slice of `s` left after removing white
      space at both ends; it neither starts nor ends with white space. */
  function Trim(s: string): (r: string)
    ensures exists i :: 0 <= i <= |s| - |r| && r == s[i..i + |r|]
                        && AllSpace(s[..i]) && AllSpace(s[i + |r|..])
    ensures r != [] ==> !IsSpace(r[0]) && !IsSpace(r[|r| - 1])
  {
    var t := TrimStart(s);
    var r := TrimEnd(t);
    TrimSlice(s, t, r);
    r
  }

  /** A prefix `r` of a suffix `t` of `s` is the slice of `s` that starts
      where `t` does, and what follows `r` in `t` follows it in `s`. */
  lemma TrimSlice(s: string, t: string, r: string)
    requires |t| <= |s| && t == s[|s| - |t|..]
    requires |r| <= |t| && r == t[..|r|]
    ensures var i := |s| - |t|; r == s[i..i + |r|] && s[i + |r|..] == t[|r|..]
  {
  }

  /** `s.split(sep)` for a one-character separator: the maximal runs of
      non-separator text between separators, empty runs included. */
  function Split(s: string, sep: char): (r: seq<string>)
    ensures |r| >= 1
    ensures forall k | 0 <= k < |r| :: sep !in r[k]
    decreases |s|
  {
    match IndexOf(s, sep)
    case None => [s]
    case Some(i) => [s[..i]] + Split(s[i + 1..], sep)
  }

  /** `parts.join(sep)`. */
  function Join(parts: seq<string>, sep: char): (r: string)
    ensures |parts| > 0 ==> StartsWith(r, parts[0])
    ensures |parts| > 1 ==> |parts[0]| < |r| && r[|parts[0]|] == sep
    decreases |parts|
  {
    if |parts| == 0 then ""
    else if |parts| == 1 then parts[0]
    else parts[0] + [sep] + Join(parts[1..], sep)
  }

  /** The text before the first `sep`, or all of `s` when there is none. */
  function FirstField(s: string, sep: char): (r: string)
    ensures StartsWith(s, r) && sep !in r
    ensures |r| < |s| ==> s[|r|] == sep
  {
    match IndexOf(s, sep)
    case None => s
    case Some(i) => s[..i]
  }

  /** The first piece of a split is the text before the first separator. */
  lemma SplitFirst(s: string, sep: char)
    ensures Split(s, sep)[0] == FirstField(s, sep)
  {
  }

  /** Joining the pieces of a split gives back the original text. */
  lemma {:induction false} JoinSplit(s: string, sep: char)
    ensures Join(Split(s, sep), sep) == s
    decreases |s|
  {
    match IndexOf(s, sep)
    case None =>
    case Some(i) =>
      var rest := Split(s[i + 1..], sep);
      assert Split(s, sep) == [s[..i]] + rest;
      JoinSplit(s[i + 1..], sep);
      assert Join(Split(s, sep), sep) == s[..i] + [sep] + s[i + 1..];
      assert s == s[..i] + [sep] + s[i + 1..];
  }

  /** Splitting a join of separator-free pieces gives back the pieces. */
  lemma {:induction false} SplitJoin(parts: seq<string>, sep: char)
    requires |parts| >= 1
    requires forall k | 0 <= k < |parts| :: sep !in parts[k]
    ensures Split(Join(parts, sep), sep) == parts
    decreases |parts|
  {
    if |parts| == 1 {
      assert IndexOf(parts[0], sep).None?;
    } else {
      var head := parts[0];
      var j := Join(parts[1..], sep);
      var s := head + [sep] + j;
      assert s[..|head|] == head && s[|head|] == sep && s[|head| + 1..] == j;
      SplitAt(s, sep, |head|);
      SplitJoin(parts[1..], sep);
      assert parts == [head] + parts[1..];
    }
  }

  /** The split of a text that starts with the separator begins with an empty piece. */
  lemma SplitLeadingSeparator(s: string, sep: char)
    ensures Split([sep] + s, sep) == [""] + Split(s, sep)
  {
    assert IndexOf([sep] + s, sep) == Some(0);
    assert ([sep] + s)[1..] == s;
  }

  /** Splitting a concatenation around a separator splits each side. */
  lemma {:induction false} SplitAround(a: string, b: string, sep: char)
    ensures Split(a + [sep] + b, sep) == Split(a, sep) + Split(b, sep)
    decreases |a|
  {
    var s := a + [sep] + b;
    match IndexOf(a, sep)
    case None =>
      assert s[..|a|] == a && s[|a| + 1..] == b;
      SplitAt(s, sep, |a|);
    case Some(i) =>
      var a' := a[i + 1..];
      assert s[..i] == a[..i] && s[i + 1..] == a' + [sep] + b;
      SplitAt(s, sep, i);
      SplitAround(a', b, sep);
      ConcatAssociates([a[..i]], Split(a', sep), Split(b, sep));
  }

  /** The pieces of `s` when its first separator is at `i`. */
  lemma SplitAt(s: string, sep: char, i: nat)
    requires i < |s| && s[i] == sep && sep !in s[..i]
    ensures Split(s, sep) == [s[..i]] + Split(s[i + 1..], sep)
  {
    IndexOfAt(s, sep, i);
  }

  lemma ConcatAssociates(x: seq<string>, y: seq<string>, z: seq<string>)
    ensures x + (y + z) == x + y + z
  {
  }

  /** Trimming twice is the same as trimming once. */
  lemma TrimIdempotent(s: string)
    ensures Trim(Trim(s)) == Trim(s)
  {
    TrimOfTrimmed(Trim(s));
  }

  /** A text that neither starts nor ends with white space is left as is. */
  lemma TrimOfTrimmed(s: string)
    requires s != [] ==> !IsSpace(s[0]) && !IsSpace(s[|s| - 1])
    ensures Trim(s) == s
  {
    assert TrimStart(s) == s;
  }

  /** Leading white space is removed up to the first other character. */
  lemma {:induction false} TrimStartPadded(pre: string, rest: string)
    requires AllSpace(pre)
    requires rest != [] && !IsSpace(rest[0])
    ensures TrimStart(pre + rest) == rest
    decreases |pre|
  {
    if pre == [] {
      assert pre + rest == rest;
    } else {
      assert (pre + rest)[0] == pre[0];
      assert (pre + rest)[1..] == pre[1..] + rest;
      TrimStartPadded(pre[1..], rest);
    }
  }

  /** Trailing white space is removed back to the last other character. */
  lemma {:induction false} TrimEndPadded(rest: string, post: string)
    requires AllSpace(post)
    requires rest != [] && !IsSpace(rest[|rest| - 1])
    ensures TrimEnd(rest + post) == rest
    decreases |post|
  {
    if post == [] {
      assert rest + post == rest;
    } else {
      var s := rest + post;
      assert s[|s| - 1] == post[|post| - 1];
      assert s[..|s| - 1] == rest + post[..|post| - 1];
      TrimEndPadded(rest, post[..|post| - 1]);
    }
  }

  /** Trimming a text padded with white space on both sides gives back the
      text, provided it neither starts nor ends with white space itself. */
  lemma TrimPadded(pre: string, w: string, post: string)
    requires AllSpace(pre) && AllSpace(post)
    requires w != [] && !IsSpace(w[0]) && !IsSpace(w[|w| - 1])
    ensures Trim(pre + w + post) == w
  {
    assert pre + w + post == pre + (w + post);
    TrimStartPadded(pre, w + post);
    TrimEndPadded(w, post);
  }

  /** The first occurrence of `c` is at `i` when `s[i]` is `c` and no earlier character is. */
  lemma IndexOfAt(s: string, c: char, i: nat)
    requires i < |s| && s[i] == c && c !in s[..i]
    ensures IndexOf(s, c) == Some(i)
  {
    assert s[i] in s;
  }
}

=== FILE: wrappers.dfy ===
/** Failure-carrying values used throughout the model in place of JavaScript's
    `undefined` and of caught exceptions. */
module Wrappers {

  /** An optional value: `None` stands for JavaScript's `undefined`. */
  datatype Option<+T> = None | Some(value: T)

  /** The outcome of an operation that reports its failures instead of throwing. */
  datatype Result<+R, +E> = Ok(value: R) | Err(error: E)
}
